=== FILE: README.md ===
# Volunteer event registration: the registration and waitlist engine

A Dafny model of the registration logic in the volunteer app. The app is a
Streamlit front end over three CSV tables: events, users and registrations.
An **event** has a main list of at most *Max Volunteers* places. It also has
a reserve list of at most *Reserve Capacity* places. The **registrations
table** (here the `Ledger`) is a sequence of `(UserID, EventID, Status)`
rows, with `Status` either `Registered` or `Reserve`. Rows are appended, so
table order is arrival order, and that order decides who is promoted from the
reserve list.

The live app is `src/main14.py`. Its behaviour has three parts:

- **Register** places a user on the main list while it has room, then on the
  reserve list while that has room, and otherwise refuses.
- **Cancel** drops one row. It then promotes the earliest waiting row of the
  event when the main list has a free slot.
- **Remove Event** deletes the event and every row of it.

The earlier versions in `src/versions/` each apply a different rule. Each is
modelled in its own module, so its rule can be compared with the live one:

- main13, main12 and main15 decide the status from the table read when the
  page was built.
- main11 has an unbounded reserve list and promotes in a batch pass. Its
  Registered Events tab stops before a Registered user's cancel button
  whenever anyone waits for that event.
- main5 and main4 promote on every cancel. main4's page stops while it is
  built as soon as any event's main list is full. From then on nobody can
  register for that event or any event listed after it, and nobody can
  cancel.
- main6 has one combined bound.
- main7 has a main list only.
- main3 has no status column.

The uploaded-file column stores bytes as the text of a list literal. Module
`FileData` models that printer and its parser.

Modules:

- `Registrations` (registrations.dfy) holds what is shared. This is the
  datatypes, the counts (`Count`, `Size`, `EventRows`), uniqueness of the
  (user, event) pair (`Unique`), the capacity invariant (`Consistent`), and the
  table edits that several versions perform identically: `Drop`, `SetStatus`,
  `Withdraw`, `RemoveEvent`, `PromoteUser`, `Lookup` and `Unlist`.
- `Main14`, `Main13`, `Main12`, `Main11`, `Main15`, `Main5`, `Main4`,
  `Main6`, `Main7` and `Main3` each hold one source file's handlers.
- `FileData` holds `Show`, which is `str(list(b))`, and `Parse`.

Versions 13, 12, 11, 15 and 7 compute the decision from one read of the
table, then append to a table reloaded on the click. Their `Register` takes
both tables, `seen` and `current`, and lemmas relate the case
`seen == current` to the live version.

The events and users tables enter only as parameters. Their rows are the
`Event` values and the user id strings. Event ids and user ids are strings,
because every version except main15 reads the tables as text; main15's
numeric columns are discussed under "## Left out".

## Model

| member | source | states |
|---|---|---|
| Registrations.FirstReserve | src/main14.py:366-370 | the earliest row of the event with status Reserve: the position holds such a row, no earlier one does, and there is none exactly when the reserve count is 0 |
| Registrations.CountZeroIff | src/main14.py:368 | an event's count for a status is 0 exactly when no row of the event has that status (`reserve_list.empty`) |
| Registrations.SizeByStatus | src/versions/main5.py:325 | counting all rows of an event is counting its Registered rows plus its Reserve rows |
| Registrations.Drop | src/versions/main6.py:292 | dropping one row by position: one row shorter, earlier rows in place, later rows shifted by one |
| Registrations.DropCount | src/main14.py:361 | dropping a row lowers exactly the count of that row's event and status by one and no other count |
| Registrations.SetStatus | src/main14.py:371 | rewriting the status of one row leaves the length and every other row unchanged |
| Registrations.SetStatusCount | src/main14.py:371 | rewriting a Reserve row to Registered moves it from the reserve count to the main count of its event |
| Registrations.UniqueDrop | src/main14.py:361 | dropping a row keeps one row per (user, event) pair |
| Registrations.UniqueAppend | src/main14.py:317-320 | appending a row for a pair that holds none keeps one row per pair |
| Registrations.RemoveEvent | src/main14.py:206 | exactly the rows of other events are kept: no row of the event is left, the table shrinks by the event's row count, and each other event's rows keep their order |
| Registrations.RemoveEventInOrder | src/main14.py:206 | Remove Event keeps every row of every other event, each once and in table order |
| Registrations.RemoveEventPreserves | src/main14.py:204-208 | removing an event keeps every other event within its capacities and keeps one row per pair |
| Registrations.RemoveEventUnique | src/versions/main13.py:207 | filtering out an event's rows keeps one row per pair |
| Registrations.Unlist | src/main14.py:205 | the events kept are exactly those with a different id |
| Registrations.UnlistLookup | src/main14.py:204-205 | after removal the id finds no event, and every other id finds the same event as before |
| Registrations.Withdraw | src/versions/main11.py:325 | dropping every row of a (user, event) pair: the pair holds no row afterwards, exactly the other rows stay, and other events' rows are unchanged |
| Registrations.WithdrawInOrder | src/versions/main4.py:281 | withdrawing keeps every row outside the pair exactly once and in table order, so each event's reserve list keeps its order |
| Registrations.WithdrawUnique | src/versions/main11.py:325 | withdrawing keeps one row per pair |
| Registrations.WithdrawCount | src/versions/main7.py:281 | withdrawing never raises a count, and leaves other events' counts equal |
| Registrations.WithdrawSize | src/versions/main3.py:245 | withdrawing never adds rows to an event |
| Registrations.WithdrawAbsent | src/versions/main4.py:281 | withdrawing a pair that holds no row leaves the table unchanged |
| Registrations.WithdrawIsDrop | src/versions/main4.py:281 | with one row per pair, withdrawing the pair of row i is dropping row i |
| Registrations.PromoteUser | src/versions/main11.py:358 | every row of the pair becomes Registered in place, and all other rows are unchanged |
| Registrations.PromoteUserIsSetStatus | src/versions/main4.py:289 | with one row per pair, promoting the user of row j rewrites row j alone |
| Registrations.PromotionsOnlyCounts | src/versions/main11.py:356-360 | Reserve-to-Registered rewrites never lower the main count or raise the reserve count, and keep the event's total |
| Registrations.Lookup | src/versions/main6.py:266-270 | the first event with the id, or none exactly when no event has it |
| Registrations.Placement | src/main14.py:321-335 | Registered exactly when the main count is below Max; Reserve exactly when the main list is full and the reserve count is below its capacity; otherwise none |
| Registrations.PlacementKeepsConsistent | src/main14.py:321-331 | a row placed by the rule keeps both bounds, and keeps the reserve list empty while the main list has room |
| Main14.Register | src/main14.py:314-335 | a user holding a row is not offered registration and nothing changes; otherwise the row goes at the end with the status the placement rule picks, or, with both lists full, nothing changes |
| Main14.RegisterPreserves | src/main14.py:317-331 | registering preserves Registered ≤ Max, Reserve ≤ Reserve Capacity, "reserve non-empty implies main list full", one row per pair, and other events' rows |
| Main14.RegisterTwice | src/main14.py:317-320 | a second click for the same event adds no second row |
| Main14.Cancel | src/main14.py:359-377 | the row is dropped; the earliest remaining Reserve row of the event is promoted exactly when the main count is then below Max and someone waits; nothing else changes, and other events' rows are untouched |
| Main14.CancelPreserves | src/main14.py:359-377 | cancelling preserves both bounds, "reserve non-empty implies main list full", and one row per pair |
| Main14.CancelPromotesOnlyVacatedSlot | src/main14.py:368-371 | on a consistent event, cancelling a Reserve row promotes nobody; cancelling a Registered row promotes exactly when someone waits |
| Main14.Scenario | src/main14.py:314-377 | capacity 2+1: two users are placed on the main list, the third waits, the fourth is refused; after the first cancels, the waiting user is promoted and the fourth can join the reserve list |
| Main13.Register | src/versions/main13.py:309-339 | the status and the offer come from the first read; the row goes at the end of the reloaded table, which is otherwise unchanged |
| Main13.AtomicRegisterIsMain14 | src/versions/main13.py:309-339 | when nothing changed between load and click, this is the live register |
| Main13.Cancel | src/versions/main13.py:362-380 | the live cancel: the row is dropped; the earliest Reserve row is promoted exactly when, after the drop, the main count is below Max and someone waits; the table becomes the drop alone, or the drop with that one row set Registered |
| Main13.CancelPreserves | src/versions/main13.py:362-380 | cancelling keeps the event within both bounds, keeps the reserve list empty unless the main list is full, and keeps one row per pair |
| Main12.Register | src/versions/main12.py:282-312 | no row for a user holding one or when both lists are full; otherwise exactly one row is appended at the end of the reloaded table and all its earlier rows are kept |
| Main12.MyRegistrations | src/versions/main12.py:317-331 | the tab lists exactly the user's rows and changes nothing |
| Main12.MyRegistrationsInOrder | src/versions/main12.py:323-325 | the tab lists every row of the user, each once and in table order |
| Main11.Register | src/versions/main11.py:274-300 | Registered exactly when the main count (first read) is below Max; otherwise Reserve, however long the reserve list is |
| Main11.RegisterPreserves | src/versions/main11.py:274-300 | registering keeps the main list within Max and one row per pair; with a full main list, the reserve list grows by one |
| Main11.CancelPreserves | src/versions/main11.py:324-328 | cancelling drops the pair's rows and promotes nobody: neither the main nor the reserve count rises, the main list stays within Max, and other events are untouched |
| Main11.RegisteredBehindWaitersCannotCancel | src/versions/main11.py:305-324 | as written, with one row per pair, a Registered user of an event with anyone on its reserve list never gets the cancel button of that row, because the position lookup raises first; a waiting user's own row never makes it raise |
| Main11.PositionAsWritten | src/versions/main11.py:309-314 | the lookup as written: nothing when the reserve list is empty, an error exactly when the list is not empty and the user is not on it, and otherwise one more than the table position of a Reserve row of the user |
| Main11.ReservePosition | src/versions/main11.py:311-314 | the corrected lookup: a place exactly when the user is on the reserve list, between 1 and the list's length |
| Main11.ReservePositionIsRank | src/versions/main11.py:311-314 | the corrected place is one more than the number of waiting rows of the event before the user's first waiting row |
| Main11.ShownPositionOff | src/versions/main11.py:314 | the number shown as written is never below the corrected place, and on a two-row table it is 2 where the place is 1 |
| Main11.ReserveRows | src/versions/main11.py:352 | the positions of the event's Reserve rows: all of them, ascending, and nothing else |
| Main11.SettledStable | src/versions/main11.py:346-360 | a later event's promotions cannot unsettle an event already handled |
| Main11.FifoCompose | src/versions/main11.py:349-360 | two in-order promotion passes together promote in order |
| Main11.PopKeepsQueue | src/versions/main11.py:359 | taking the head off the reserve snapshot keeps it a sorted list of waiting rows |
| Main11.PromoteHead | src/versions/main11.py:356-358 | one iteration: promoting the head's user keeps the loop's facts about promoted and waiting rows and, with one row per pair, adds at most one row to the main list |
| Main11.PromoteWaiting | src/versions/main11.py:350-360 | the while loop for one event: only Reserve-to-Registered rewrites; afterwards the main list is full or nobody waits; other events' rows are unchanged; with one row per pair, rows are promoted in table order and a main list within Max stays within Max |
| Main11.UpdateRegistrations | src/versions/main11.py:346-362 | every listed event ends settled; only promotions happen; unlisted events' rows are unchanged; with one row per pair, uniqueness holds, promotion is in table order, and every event listed once keeps its main list within Max |
| Main15.Register | src/versions/main15.py:294-319 | the placement rule applied to the first read; the row goes at the end of the reloaded table; there is no duplicate check |
| Main15.RegisterKeepsCapacity | src/versions/main15.py:294-319 | with no change between load and click, both bounds hold afterwards, and for a user with no row this is the live register |
| Main15.DuplicateRowsPossible | src/versions/main15.py:298-317 | registering twice for an event with room gives the user two rows |
| Main5.Register | src/versions/main5.py:322-339 | no sign-in means no change; Registered exactly when all rows of the event number below Max; otherwise Reserve; a duplicate is warned and not appended |
| Main5.RegisterPreserves | src/versions/main5.py:322-339 | registering keeps Registered ≤ Max and one row per pair, and never refuses for lack of room |
| Main5.Cancel | src/versions/main5.py:361-374 | drop the row, then promote the earliest Reserve row of its event whenever one exists |
| Main5.CancelOverfillsMainList | src/versions/main5.py:368-372 | cancelling a Reserve row with the main list full still promotes: 2 Registered with Max 1 |
| Main5.CancelFixed | src/versions/main5.py:361-374 | as Cancel, but it promotes only when the main count after the drop is below Max |
| Main5.CancelFixedKeepsMainBound | src/versions/main5.py:361-374 | the corrected cancel keeps Registered ≤ Max, and still fills a slot vacated by a Registered row |
| Main5.AdminCancelPreserves | src/versions/main5.py:174 | the admin's cancel drops the pair's rows with no promotion, so it keeps Registered ≤ Max and one row per pair |
| Main4.Register | src/versions/main4.py:238-268 | as written, a click on the button of event k: the page stops with an error, and the table stays as it was, exactly when some event up to and including k has a full main list, because the Reserve Capacity cell is still text when it is compared and the loop never reaches event k's button; otherwise a user holding a row is warned and anyone else is added as Registered and shown the event's row count after the append |
| Main4.RegisterFixed | src/versions/main4.py:241-268 | with the Reserve Capacity cell read as a number: the three-way rule on the loaded table; a user holding a row is warned under either button; the number shown is the event's row count (main list) or the reserve count (reserve list) after the append |
| Main4.RegisterRaises | src/versions/main4.py:238-258 | while no event up to k has a full main list, the register as written is the corrected one; it raises where the corrected one would add a Reserve row, and also where an earlier event is full and the corrected one would add a Registered row; it never changes any event's reserve count |
| Main4.RegisterIsMain14 | src/versions/main4.py:241-268 | while a list has room the corrected register is the live register; with both full, a user holding a row is told the event is full |
| Main4.Cancel | src/versions/main4.py:280-292 | drop the pair's rows, then promote the user of the earliest Reserve row whenever one exists |
| Main4.OverfillReachable | src/versions/main4.py:249-264 | the counterexample's table comes from three clicks on the corrected register, while the register as written raises on the second click, and on that table the page as written is never built as far as the cancel tab |
| Main4.CancelOverfillsMainList | src/versions/main4.py:286-289 | on a consistent event, cancelling a waiting user with the main list full still promotes: 2 Registered with Max 1 |
| Main4.CancelFixed | src/versions/main4.py:280-292 | as Cancel, but it promotes only into a free main-list slot |
| Main4.CancelFixedIsMain14 | src/versions/main4.py:280-292 | with one row per pair, the corrected cancel of the user holding row i is the live cancel of row i |
| Main4.CancelFixedPreserves | src/versions/main4.py:280-292 | the corrected cancel keeps the event consistent and one row per pair |
| Main6.Register | src/versions/main6.py:262-280 | empty or unknown ids are refused with no change; a Registered row is accepted exactly when the event's row count is below Max + Reserve Capacity and the user holds no row |
| Main6.RegisterPreserves | src/versions/main6.py:271-275 | every event stays within Max + Reserve Capacity rows, and there stays one row per pair |
| Main6.CancelPreserves | src/versions/main6.py:291-294 | cancel drops exactly that row: its event loses one row, no count rises, other events are untouched, and no one is promoted |
| Main7.Register | src/versions/main7.py:263-273 | offered only to users holding no row at load; a Registered row is appended exactly when the reloaded table has fewer than Max rows for the event; otherwise nothing changes |
| Main7.RegisterKeepsBound | src/versions/main7.py:267-271 | the event never exceeds Max rows, and the reserve list stays as it was |
| Main7.CancelPreserves | src/versions/main7.py:280-284 | the user's rows for the event go and nobody is promoted: no count rises and the bound holds |
| Main3.Register | src/versions/main3.py:224-234 | a status-less row is appended exactly when the event has fewer than Max rows and the user holds none; a full event refuses even a user holding a row |
| Main3.RegisterPreserves | src/versions/main3.py:224-234 | registering keeps the event within Max rows and one row per pair; a join adds exactly the user's row |
| Main3.CancelPreserves | src/versions/main3.py:244-247 | cancel removes the user's rows for the event and keeps the bound and uniqueness |
| FileData.Decimal | src/main14.py:287 | the decimal numeral of a number, with no leading zero |
| FileData.ValueDecimal | src/main14.py:287 | reading back a printed numeral gives the number printed |
| FileData.DecimalValue | src/main14.py:268 | printing the value of a canonical numeral gives that numeral back |
| FileData.Show | src/main14.py:457 | `str(list(b))`: a bracketed list of the items |
| FileData.NumeralDecimal | src/main14.py:442 | the parser reads every byte's printed numeral back as that byte, and any digit run it accepts is the printed numeral of the byte it returns |
| FileData.ParseShow | src/main14.py:287 | every byte sequence survives being stored and read back |
| FileData.ShowParse | src/main14.py:268 | whatever the parser accepts is exactly the printing of the bytes it returns |

The live version's rows stand for the others that share its code:

- Remove Event is the same filter at src/versions/main13.py:204-210,
  src/versions/main12.py:185-191, src/versions/main5.py:207-211,
  src/versions/main7.py:200-206 and src/versions/main3.py:182-188. All of
  these are `Registrations.RemoveEvent` and `Registrations.Unlist`. main15's
  Remove Event (src/versions/main15.py:205-211) removes the event but, as
  written, keeps its registrations; see "## Left out".
- Dropping every row of a pair appears at main11, main7, main4, main3 and
  main5's admin panel. It is `Registrations.Withdraw`.

Cancel can be read as "fill the slot the cancelled user vacated", which
promotes only when the cancelled row was Registered. The code instead tests,
after the drop, that the main count is below Max and the reserve list is not
empty. The model follows the code. `Main14.CancelPromotesOnlyVacatedSlot`
shows that the two readings agree on every consistent event.

## Left out

- Streamlit rendering, tabs, reruns, session navigation, login, sign-up and the admin/admin account are user interface and ambient state. The signed-in user appears only as a user-id parameter.
- CSV loading and saving are file I/O. The tables are in-memory sequences, and each handler runs atomically. Where a version reads the table twice, both reads are parameters. Races between concurrent sessions are not modelled.
- Ids are compared as strings. Where a version compares the text EventID column with a number, the model follows the evidently intended comparison of ids.
- Main15.Register: models the intended comparison of ids. main15 reads its tables without forcing text (src/versions/main15.py:34), so EventID is numeric, and the comparison with `str(event['EventID'])` at src/versions/main15.py:294 never matches. As written, both counts are always 0, and every click on the first button appends a Registered row with no bound. For the same reason, Remove Event (src/versions/main15.py:208) keeps every registration of the removed event.
- Main5.AdminCancelPreserves: the admin panel matches registrations on the users table's ID (src/versions/main5.py:165-174), but main5 stores the username as UserID (src/versions/main5.py:290, 334). As written, the admin's cancel finds no row. The lemma holds for any user id, including one that matches nothing.
- Main6.Register: models the intended lookup by id. As written, src/versions/main6.py:266 compares the EventID column, loaded as text, with `int(event_id)`. That comparison is never true, so every numeric id is reported as an invalid Event ID, and a non-numeric id raises. As written, main6 registers nobody.
- `eval` is not modelled. The parser accepts exactly the texts `str(list(b))` produces. Python would also accept other spellings, such as missing or extra spaces. Parsing those is not part of the stored format.
- Base64 file storage (src/versions/main15.py:33-49) is a library wrapper and is left out.
- Messaging, contact forms, file-upload widgets and the Excel export in main5 are user interface or foreign libraries.
- Main11: the Registered Events tab of src/versions/main11.py:305-338 is modelled only as far as the position lookup and the cancel button it guards; the lookup of the event's own row at line 308 raises when the event was deleted, which the model does not represent.
- Main4.Cancel: it is the handler of a cancel button, which the page as written shows only when no event has a full main list, because the comparison at src/versions/main4.py:258 raises before the tab at lines 271-292 is built (Main4.PageBuilt); the cancel itself is modelled on any table.
- src/versions/Tapp.py is a network client with no registration logic. src/versions/main.py holds only sign-in screens. Neither is part of this model.
- Main6.RegisterPreserves: assumes event ids are distinct. That does not always hold: the admin panel numbers a new event one past the number of events (src/versions/main6.py:145), which reissues a live id after a removal. With two events sharing an id, the code checks only the first one's bound.
- Main11.UpdateRegistrations: states table-order promotion and the main-list bound only when the table holds one row per pair, and the bound only for events whose id is listed once. With duplicate rows, promoting a user rewrites all of their rows at once; with a repeated id, a later entry's pass may use a larger Max.
- Main4.Register: a blank Reserve Capacity cell is read as a missing value rather than text; comparing with it is false and the handler reports the event as full. The model does not represent blank cells.

## Findings

| source | as written | input that shows it | evidently intended | confidence | as-written member | corrected member |
|---|---|---|---|---|---|---|
| src/versions/main5.py:368-372 | after any cancel, the first Reserve row of the event is promoted whenever one exists | Max 1; rows A Registered, B Reserve, C Reserve; C cancels, B is promoted, and 2 users are Registered | replace the cancelled user only when a main-list slot is free | not executed | Main5.CancelOverfillsMainList | Main5.CancelFixedKeepsMainBound |
| src/versions/main4.py:258 | the reserve count is compared with the Reserve Capacity cell, which was loaded as text and never converted | any event whose main list is full: the comparison raises while the page is built, so no one is ever put on a reserve list, events listed after it show no button, and the cancel tab is not built | compare with the cell read as a number, as src/main14.py:328 does | not executed | Main4.RegisterRaises | Main4.RegisterIsMain14 |
| src/versions/main4.py:286-289 | after any cancel, the user of the first Reserve row is promoted whenever one exists | Max 1, Reserve Capacity 2; rows A Registered, B Reserve, C Reserve, built by the corrected register of the row above (with line 258 as written the page stops on that table, so the defect shows once line 258 is repaired); C cancels, B is promoted, and 2 users are Registered | promote only into a free main-list slot, as the live version does | not executed | Main4.CancelOverfillsMainList | Main4.CancelFixedPreserves |
| src/versions/main11.py:312-314 | the user's place is looked up whenever the event's reserve list is not empty, and indexing the empty match raises | Max 1; A Registered, B Reserve; A opens the Registered Events tab: the lookup for A's row raises and A gets no cancel button | look the place up only for a user on the list | not executed | Main11.RegisteredBehindWaitersCannotCancel | Main11.ReservePosition |
| src/versions/main11.py:314 | the place shown is the row's label in the whole table plus one | A Registered, B Reserve for one event: B is told position 2 on a list of one | the rank among the event's waiting rows | not executed | Main11.ShownPositionOff | Main11.ReservePositionIsRank |

=== FILE: filedata.dfy ===
/** The FileData column: an uploaded file's bytes are stored as the text of a
    list literal, `[137, 80, 78, 71]`, and turned back into bytes on download.
    The printer is the list-to-text conversion of Python (items in decimal,
    separated by a comma and a space, `[]` for no items); the parser accepts
    exactly the texts the printer can produce. */
module FileData {
  import opened Registrations

  type byte = x: int | 0 <= x < 256

  predicate IsDigit(c: char) {
    '0' <= c <= '9'
  }

  predicate AllDigits(s: string) {
    forall i :: 0 <= i < |s| ==> IsDigit(s[i])
  }

  /** A decimal numeral as the printer writes it: at least one digit and no
      leading zero unless the numeral is `0` itself. */
  predicate Canonical(s: string) {
    |s| >= 1 && AllDigits(s) && (|s| == 1 || s[0] != '0')
  }

  function DigitChar(d: nat): (c: char)
    requires d < 10
    ensures IsDigit(c) && c as int - '0' as int == d
  {
    ('0' as int + d) as char
  }

  function DigitValue(c: char): (d: nat)
    requires IsDigit(c)
    ensures d < 10 && DigitChar(d) == c
  {
    c as int - '0' as int
  }

  /** The decimal numeral of `n`. */
  function Decimal(n: nat): (s: string)
    ensures Canonical(s)
    ensures n < 10 <==> |s| == 1
  {
    if n < 10 then [DigitChar(n)]
    else
      var p := Decimal(n / 10);
      p + [DigitChar(n % 10)]
  }

  /** The number a string of digits denotes. */
  function Value(s: string): nat
    requires AllDigits(s)
  {
    if s == [] then 0 else Value(s[..|s| - 1]) * 10 + DigitValue(s[|s| - 1])
  }

  /** Reading back a printed numeral gives the number printed. */
  lemma {:induction false} ValueDecimal(n: nat)
    ensures Value(Decimal(n)) == n
  {
    if n >= 10 {
      var s := Decimal(n);
      assert s[..|s| - 1] == Decimal(n / 10);
      ValueDecimal(n / 10);
    }
  }

  /** A numeral that does not start with `0` denotes a positive number. */
  lemma {:induction false} ValuePositive(s: string)
    requires |s| >= 1 && AllDigits(s) && s[0] != '0'
    ensures Value(s) >= 1
  {
    if |s| > 1 {
      ValuePositive(s[..|s| - 1]);
    }
  }

  /** Printing the number a canonical numeral denotes gives that numeral
      back. */
  lemma {:induction false} DecimalValue(s: string)
    requires Canonical(s)
    ensures Decimal(Value(s)) == s
  {
    if |s| > 1 {
      var p := s[..|s| - 1];
      ValuePositive(p);
      DecimalValue(p);
      assert s == p + [s[|s| - 1]];
    }
  }

  /** Two numerals separated by `, `: the items of the list. */
  function Items(b: seq<byte>): string
  {
    if b == [] then ""
    else if |b| == 1 then Decimal(b[0])
    else Decimal(b[0]) + ", " + Items(b[1..])
  }

  /** The text stored for bytes `b`: the items in brackets. */
  function Show(b: seq<byte>): (s: string)
    ensures |s| >= 2 && s[0] == '[' && s[|s| - 1] == ']'
    ensures s[1..|s| - 1] == Items(b)
  {
    "[" + Items(b) + "]"
  }

  /** Length of the run of digits at the front of `s`. */
  function DigitRun(s: string): (k: nat)
    ensures k <= |s| && AllDigits(s[..k])
    ensures k < |s| ==> !IsDigit(s[k])
  {
    if s == [] || !IsDigit(s[0]) then 0
    else
      var k := DigitRun(s[1..]);
      assert s[..k + 1] == [s[0]] + s[1..][..k];
      k + 1
  }

  /** The byte a run of digits stands for, if it is a canonical numeral
      below 256. */
  function Numeral(d: string): (r: Option<byte>)
    ensures r.Some? <==> Canonical(d) && Value(d) < 256
    ensures r.Some? ==> r.value == Value(d)
  {
    if Canonical(d) && Value(d) < 256 then Some(Value(d)) else None
  }

  /** A run of digits is accepted as a byte exactly when it is how the
      printer writes that byte. */
  lemma NumeralDecimal(n: byte, d: string)
    ensures Numeral(Decimal(n)) == Some(n)
    ensures Numeral(d).Some? ==> Decimal(Numeral(d).value) == d
  {
    ValueDecimal(n);
    if Numeral(d).Some? {
      DecimalValue(d);
    }
  }

  /** One or more items: canonical numerals below 256, each but the last
      followed by `, `. */
  function ParseItems(s: string): (r: Option<seq<byte>>)
    ensures r.Some? ==> |r.value| >= 1
    decreases |s|
  {
    var k := DigitRun(s);
    match Numeral(s[..k])
    case None => None
    case Some(x) =>
      if k == |s| then Some([x])
      else if k + 2 <= |s| && s[k] == ',' && s[k + 1] == ' ' then
        match ParseItems(s[k + 2..])
        case None => None
        case Some(rest) => Some([x] + rest)
      else None
  }

  /** Reading a FileData cell back into bytes. */
  function Parse(s: string): (r: Option<seq<byte>>)
  {
    if |s| < 2 || s[0] != '[' || s[|s| - 1] != ']' then None
    else if s[1..|s| - 1] == "" then Some([])
    else ParseItems(s[1..|s| - 1])
  }

  /** The digit run of a numeral followed by a non-digit is that numeral. */
  lemma {:induction false} DigitRunOf(d: string, rest: string)
    requires AllDigits(d)
    requires rest == [] || !IsDigit(rest[0])
    ensures DigitRun(d + rest) == |d|
  {
    if d != [] {
      assert (d + rest)[1..] == d[1..] + rest;
      DigitRunOf(d[1..], rest);
    } else {
      assert d + rest == rest;
    }
  }

  lemma {:induction false} ParseItemsOfItems(b: seq<byte>)
    requires |b| >= 1
    ensures ParseItems(Items(b)) == Some(b)
  {
    var d := Decimal(b[0]);
    ValueDecimal(b[0]);
    var s := Items(b);
    if |b| == 1 {
      assert s == d + [];
      DigitRunOf(d, []);
      assert s[..|d|] == d;
      assert b == [b[0]];
    } else {
      var tail := Items(b[1..]);
      assert s == d + (", " + tail);
      DigitRunOf(d, ", " + tail);
      assert s[..|d|] == d;
      assert s[|d| + 2..] == tail;
      ParseItemsOfItems(b[1..]);
      assert b == [b[0]] + b[1..];
    }
  }

  /** Every byte sequence survives being stored and read back. */
  lemma ParseShow(b: seq<byte>)
    ensures Parse(Show(b)) == Some(b)
  {
    var s := Show(b);
    if b != [] {
      ParseItemsOfItems(b);
      assert Items(b) != "";
    }
  }

  /** What a successful parse of the items tells about the text: a canonical
      numeral below 256 for the first byte, then either the end or `, ` and
      the items of the remaining bytes. */
  lemma {:induction false} ParseItemsShape(s: string, b: seq<byte>)
    requires ParseItems(s) == Some(b)
    ensures DigitRun(s) >= 1 && Canonical(s[..DigitRun(s)])
    ensures b[0] == Value(s[..DigitRun(s)])
    ensures DigitRun(s) == |s| ==> b == [b[0]]
    ensures DigitRun(s) < |s| ==>
      && DigitRun(s) + 2 <= |s| && s[DigitRun(s)] == ',' && s[DigitRun(s) + 1] == ' '
      && ParseItems(s[DigitRun(s) + 2..]) == Some(b[1..])
      && s == s[..DigitRun(s)] + ", " + s[DigitRun(s) + 2..]
  {
    var k := DigitRun(s);
    var x := Numeral(s[..k]).value;
    if k < |s| {
      var rest := ParseItems(s[k + 2..]).value;
      assert b == [x] + rest;
      assert b[1..] == rest;
      SplitAround(s, k);
      assert s[k..k + 2] == ", ";
    }
  }

  lemma SplitAround(s: string, k: nat)
    requires k + 2 <= |s|
    ensures s == s[..k] + s[k..k + 2] + s[k + 2..]
  {
  }

  lemma {:induction false} ItemsOfParseItems(s: string, b: seq<byte>)
    requires ParseItems(s) == Some(b)
    ensures Items(b) == s
    decreases |s|
  {
    ParseItemsShape(s, b);
    var k := DigitRun(s);
    var d := s[..k];
    DecimalValue(d);
    if k == |s| {
      assert d == s;
    } else {
      var tail := s[k + 2..];
      ItemsOfParseItems(tail, b[1..]);
      assert |b| >= 2;
      assert Items(b) == d + ", " + tail;
    }
  }

  /** The parser accepts nothing but printed lists: whatever it reads is
      exactly the printing of what it returns. */
  lemma ShowParse(s: string, b: seq<byte>)
    requires Parse(s) == Some(b)
    ensures Show(b) == s
  {
    if s[1..|s| - 1] == "" {
      assert s == "[" + "" + "]";
    } else {
      ItemsOfParseItems(s[1..|s| - 1], b);
      assert s == "[" + s[1..|s| - 1] + "]";
    }
  }
}

=== FILE: main11.dfy ===
/** Version 11: the reserve list has no bound, cancelling promotes nobody,
    and promotion is a batch pass (`update_registrations`) run at the start of
    every page load. */
module Main11 {
  import opened Registrations

  /** The Register for Events handler: Registered while the main list (as
      first read) has room, otherwise Reserve, whatever the reserve capacity.
      The row goes at the end of the reloaded table. */
  function Register(seen: Ledger, current: Ledger, ev: Event, u: UserId): (r: Step)
    ensures r.verdict.Added? <==> !Has(seen, u, ev.id)
    ensures r.verdict == AlreadyRegistered <==> Has(seen, u, ev.id)
    ensures r.verdict == Added(Registered) <==>
      !Has(seen, u, ev.id) && Count(seen, ev.id, Registered) < ev.maxVolunteers
    ensures r.verdict.Added? ==> r.after == current + [Row(u, ev.id, r.verdict.status)]
    ensures !r.verdict.Added? ==> r.after == current
  {
    var status := if Count(seen, ev.id, Registered) < ev.maxVolunteers then Registered else Reserve;
    if !Has(seen, u, ev.id) then Step(Added(status), current + [Row(u, ev.id, status)])
    else Step(AlreadyRegistered, current)
  }

  /** With no change between load and click, registering keeps the main list
      within Max Volunteers and one row per pair; a full main list sends the
      user to the reserve list however long it already is. */
  lemma RegisterPreserves(t: Ledger, ev: Event, u: UserId)
    requires Count(t, ev.id, Registered) <= ev.maxVolunteers && Unique(t)
    ensures Count(Register(t, t, ev, u).after, ev.id, Registered) <= ev.maxVolunteers
    ensures Unique(Register(t, t, ev, u).after)
    ensures !Has(t, u, ev.id) && Count(t, ev.id, Registered) >= ev.maxVolunteers ==>
      Count(Register(t, t, ev, u).after, ev.id, Reserve) == Count(t, ev.id, Reserve) + 1
  {
    var r := Register(t, t, ev, u);
    if r.verdict.Added? {
      CountAppend(t, Row(u, ev.id, r.verdict.status), ev.id, Registered);
      CountAppend(t, Row(u, ev.id, r.verdict.status), ev.id, Reserve);
      UniqueAppend(t, Row(u, ev.id, r.verdict.status));
    }
  }

  /** The Cancel Registration button drops every row of the pair and promotes
      nobody: the main list cannot grow, no status changes, other events are
      untouched; filling the freed slot is left to the next pass. */
  lemma CancelPreserves(t: Ledger, ev: Event, u: UserId)
    requires Count(t, ev.id, Registered) <= ev.maxVolunteers
    ensures !Has(Withdraw(t, u, ev.id), u, ev.id)
    ensures Count(Withdraw(t, u, ev.id), ev.id, Registered) <= ev.maxVolunteers
    ensures Count(Withdraw(t, u, ev.id), ev.id, Registered) <= Count(t, ev.id, Registered)
    ensures Count(Withdraw(t, u, ev.id), ev.id, Reserve) <= Count(t, ev.id, Reserve)
    ensures forall e :: e != ev.id ==> EventRows(Withdraw(t, u, ev.id), e) == EventRows(t, e)
    ensures Unique(t) ==> Unique(Withdraw(t, u, ev.id))
  {
    WithdrawCount(t, u, ev.id, ev.id, Registered);
    WithdrawCount(t, u, ev.id, ev.id, Reserve);
    if Unique(t) {
      WithdrawUnique(t, u, ev.id);
    }
  }

  /** User `u` holds a Reserve row of event `e`. */
  predicate OnReserveList(t: Ledger, u: UserId, e: EventId) {
    exists j :: 0 <= j < |t| && t[j].user == u && Holds(t[j], e, Reserve)
  }

  /** The Registered Events tab, as written, looks up the user's place on the
      reserve list of row `i`'s event whenever that list is not empty; when
      the user is not on it, the lookup raises. */
  predicate PositionRaises(t: Ledger, i: nat)
    requires i < |t|
  {
    Count(t, t[i].event, Reserve) > 0 && !OnReserveList(t, t[i].user, t[i].event)
  }

  /** The tab walks the user's rows in table order and stops at the first
      lookup that raises: the cancel button of row `i` is shown exactly when
      no row of the same user up to `i` raises. */
  predicate CancelShown(t: Ledger, i: nat)
    requires i < |t|
  {
    forall j :: 0 <= j <= i && t[j].user == t[i].user ==> !PositionRaises(t, j)
  }

  /** As written, a Registered user of an event with anyone waiting gets no
      cancel button for that row, while a waiting user's own row never makes
      the lookup raise. */
  lemma RegisteredBehindWaitersCannotCancel(t: Ledger, i: nat)
    requires i < |t| && Unique(t)
    ensures t[i].status == Registered && Count(t, t[i].event, Reserve) > 0 ==> !CancelShown(t, i)
    ensures t[i].status == Reserve ==> !PositionRaises(t, i)
  {
    if t[i].status == Registered && Count(t, t[i].event, Reserve) > 0 {
      forall j | 0 <= j < |t| && j != i
        ensures !(t[j].user == t[i].user && t[j].event == t[i].event)
      {
        UniqueApart(t, i, j);
      }
      assert PositionRaises(t, i);
    }
  }

  /** The place of user `u` on the reserve list of event `e`, counting from 1,
      or nothing when the user is not on it: the lookup the tab evidently
      intends, which cannot fail, so every row gets its cancel button. */
  function ReservePosition(t: Ledger, u: UserId, e: EventId): (r: Option<nat>)
    ensures r.Some? <==> OnReserveList(t, u, e)
    ensures r.Some? ==> 1 <= r.value <= Count(t, e, Reserve)
  {
    if t == [] then None
    else
      assert forall j :: 1 <= j < |t| ==> t[1..][j - 1] == t[j];
      if t[0].user == u && Holds(t[0], e, Reserve) then Some(1)
      else
        match ReservePosition(t[1..], u, e)
        case None => None
        case Some(p) =>
          assert OnReserveList(t, u, e) by {
            var j :| 0 <= j < |t[1..]| && t[1..][j].user == u && Holds(t[1..][j], e, Reserve);
            assert t[j + 1] == t[1..][j];
          }
          Some(if Holds(t[0], e, Reserve) then p + 1 else p)
  }

  /** The table position of the first Reserve row of event `e` held by `u`. */
  function FirstReserveRow(t: Ledger, u: UserId, e: EventId): (r: Option<nat>)
    ensures r.Some? <==> OnReserveList(t, u, e)
    ensures r.Some? ==> r.value < |t| && t[r.value].user == u && Holds(t[r.value], e, Reserve)
    ensures r.Some? ==> forall j :: 0 <= j < r.value ==> !(t[j].user == u && Holds(t[j], e, Reserve))
  {
    if t == [] then None
    else if t[0].user == u && Holds(t[0], e, Reserve) then Some(0)
    else
      assert forall j :: 1 <= j < |t| ==> t[1..][j - 1] == t[j];
      match FirstReserveRow(t[1..], u, e)
      case None => None
      case Some(p) => Some(p + 1)
  }

  /** What the position lookup of the Registered Events tab yields, as written. */
  datatype Lookup = NoList | Shown(number: nat) | Raises

  /** The lookup as written: nothing when nobody waits; otherwise the table
      label of the user's first Reserve row plus one, the label being the
      row's position in the freshly loaded table; it raises when the user is
      not on the list. */
  function PositionAsWritten(t: Ledger, u: UserId, e: EventId): (r: Lookup)
    ensures r.NoList? <==> Count(t, e, Reserve) == 0
    ensures r.Raises? <==> Count(t, e, Reserve) > 0 && !OnReserveList(t, u, e)
    ensures r.Shown? ==> exists j :: 0 <= j < |t| && r.number == j + 1 && t[j].user == u && Holds(t[j], e, Reserve)
  {
    if Count(t, e, Reserve) == 0 then NoList
    else
      match FirstReserveRow(t, u, e)
      case None => Raises
      case Some(j) => Shown(j + 1)
  }

  /** The corrected position is the rank of the user's first waiting row: one
      more than the number of waiting rows of the event before it. */
  lemma {:induction false} ReservePositionIsRank(t: Ledger, u: UserId, e: EventId)
    ensures ReservePosition(t, u, e).Some? <==> FirstReserveRow(t, u, e).Some?
    ensures ReservePosition(t, u, e).Some? ==> ReservePosition(t, u, e).value == Count(t[..FirstReserveRow(t, u, e).value], e, Reserve) + 1
  {
    if t != [] && !(t[0].user == u && Holds(t[0], e, Reserve)) {
      ReservePositionIsRank(t[1..], u, e);
      if ReservePosition(t, u, e).Some? {
        var p := FirstReserveRow(t[1..], u, e).value;
        assert t[..p + 1][1..] == t[1..][..p];
      }
    }
  }

  /** The number shown as written is never below the rank, and differs from it
      as soon as a row of another list comes first: with A Registered and B
      waiting, B is told position 2 of a one-person reserve list. */
  lemma ShownPositionOff(t: Ledger, u: UserId, e: EventId)
    ensures PositionAsWritten(t, u, e).Shown? ==> ReservePosition(t, u, e).Some? && PositionAsWritten(t, u, e).number >= ReservePosition(t, u, e).value
    ensures var w := [Row("A", "E", Registered), Row("B", "E", Reserve)];
            PositionAsWritten(w, "B", "E") == Shown(2) && ReservePosition(w, "B", "E") == Some(1)
  {
    if PositionAsWritten(t, u, e).Shown? {
      ReservePositionIsRank(t, u, e);
      var j := FirstReserveRow(t, u, e).value;
      CountPrefixBound(t[..j], e);
    }
    var w := [Row("A", "E", Registered), Row("B", "E", Reserve)];
    assert w[1..] == [Row("B", "E", Reserve)];
    assert w[1..][1..] == [];
    assert FirstReserveRow(w, "B", "E") == Some(1);
  }

  /** A table of `n` rows counts at most `n` rows of any kind. */
  lemma {:induction false} CountPrefixBound(t: Ledger, e: EventId)
    ensures Count(t, e, Reserve) <= |t|
  {
    if t != [] {
      CountPrefixBound(t[1..], e);
    }
  }

  /** After the pass, an event either has a full main list or nobody waiting. */
  predicate Settled(t: Ledger, ev: Event) {
    Count(t, ev.id, Registered) >= ev.maxVolunteers || Count(t, ev.id, Reserve) == 0
  }

  /** Waiting rows are promoted in table order: of two rows that were both
      waiting for one event, the later is promoted only if the earlier is. */
  ghost predicate FifoPromoted(a: Ledger, b: Ledger)
    requires |a| == |b|
  {
    forall i, j :: 0 <= i < j < |a| && a[i].event == a[j].event
                   && a[i].status == Reserve && a[j].status == Reserve && b[j].status == Registered
                   ==> b[i].status == Registered
  }

  predicate Listed(events: seq<Event>, e: EventId) {
    exists k :: 0 <= k < |events| && events[k].id == e
  }

  /** No other entry of the events table carries the id of entry `k`. */
  predicate ListedOnce(events: seq<Event>, k: nat)
    requires k < |events|
  {
    forall m :: 0 <= m < |events| && m != k ==> events[m].id != events[k].id
  }

  /** The main list of the event holds at most Max Volunteers rows. */
  predicate MainBounded(t: Ledger, ev: Event) {
    Count(t, ev.id, Registered) <= ev.maxVolunteers
  }

  /** Each of the first `n` events that is listed once and had its main list
      within Max Volunteers in `t` still has it in `r`. */
  predicate BoundsKept(events: seq<Event>, n: nat, t: Ledger, r: Ledger)
    requires n <= |events|
  {
    forall k :: 0 <= k < n && ListedOnce(events, k) && MainBounded(t, events[k]) ==> MainBounded(r, events[k])
  }

  /** Promotions that leave every row of `e` as it was leave its counts as
      they were. */
  lemma {:induction false} KeptCount(a: Ledger, b: Ledger, e: EventId)
    requires PromotionsOnly(a, b)
    requires forall i :: 0 <= i < |a| && a[i].event == e ==> b[i] == a[i]
    ensures forall s :: Count(b, e, s) == Count(a, e, s)
  {
    if a != [] {
      assert PromotionsOnly(a[1..], b[1..]) by {
        assert forall k :: 0 <= k < |a| - 1 ==> a[1..][k] == a[k + 1] && b[1..][k] == b[k + 1];
      }
      KeptCount(a[1..], b[1..], e);
    }
  }

  /** Positions of the Reserve rows of event `e`, ascending: the reserve list
      the pass walks through. */
  function ReserveRows(t: Ledger, e: EventId): (s: seq<nat>)
    ensures forall k :: 0 <= k < |s| ==> s[k] < |t| && Holds(t[s[k]], e, Reserve)
    ensures forall k, m :: 0 <= k < m < |s| ==> s[k] < s[m]
    ensures forall i :: 0 <= i < |t| && Holds(t[i], e, Reserve) ==> i in s
  {
    if t == [] then []
    else
      var s := ReserveRows(t[..|t| - 1], e);
      if Holds(t[|t| - 1], e, Reserve) then s + [|t| - 1] else s
  }

  /** Promotions keep an event settled. */
  lemma SettledStable(a: Ledger, b: Ledger, ev: Event)
    requires PromotionsOnly(a, b) && Settled(a, ev)
    ensures Settled(b, ev)
  {
    PromotionsOnlyCounts(a, b, ev.id);
  }

  /** Two promotion passes, each in table order, are together in table order. */
  lemma FifoCompose(t: Ledger, a: Ledger, b: Ledger)
    requires PromotionsOnly(t, a) && PromotionsOnly(a, b)
    requires FifoPromoted(t, a) && FifoPromoted(a, b)
    ensures FifoPromoted(t, b)
  {
    forall i, j | 0 <= i < j < |t| && t[i].event == t[j].event
                  && t[i].status == Reserve && t[j].status == Reserve && b[j].status == Registered
      ensures b[i].status == Registered
    {
      if a[j].status == Registered {
        assert a[i].status == Registered;
      } else if a[i].status == Reserve {
        assert a[i].event == a[j].event;
      }
    }
  }

  /** `pending` lists positions of Reserve rows of `e` in `t`, ascending. */
  ghost predicate Queue(t: Ledger, pending: seq<nat>, e: EventId) {
    && (forall k :: 0 <= k < |pending| ==> pending[k] < |t| && Holds(t[pending[k]], e, Reserve))
    && (forall k, m :: 0 <= k < m < |pending| ==> pending[k] < pending[m])
  }

  /** Every row of `e` still waiting in `r` is still in the queue. */
  ghost predicate Waiting(r: Ledger, pending: seq<nat>, e: EventId) {
    forall i :: 0 <= i < |r| && Holds(r[i], e, Reserve) ==> i in pending
  }

  /** The rows already taken off the queue all come before the rows left in it. */
  ghost predicate Served(t: Ledger, pending: seq<nat>, e: EventId) {
    forall i, k :: 0 <= i < |t| && Holds(t[i], e, Reserve) && i !in pending && 0 <= k < |pending| ==>
      i < pending[k]
  }

  /** With one row per pair, a row that waited in `t` is promoted in `r`
      exactly when it has left the queue. */
  ghost predicate PromotedServed(t: Ledger, r: Ledger, pending: seq<nat>, e: EventId)
    requires |r| == |t|
  {
    Unique(t) ==> forall i :: 0 <= i < |t| && Holds(t[i], e, Reserve) ==>
      (r[i].status == Registered <==> i !in pending)
  }

  /** Only rows of event `e` may differ between `t` and `r`. */
  ghost predicate OthersKept(t: Ledger, r: Ledger, e: EventId)
    requires |r| == |t|
  {
    forall i :: 0 <= i < |t| && t[i].event != e ==> r[i] == t[i]
  }

  lemma PopKeepsQueue(t: Ledger, pending: seq<nat>, e: EventId)
    requires Queue(t, pending, e) && |pending| > 0
    ensures Queue(t, pending[1..], e)
    ensures forall i :: i in pending && i != pending[0] ==> i in pending[1..]
    ensures pending[0] !in pending[1..]
    ensures Served(t, pending, e) ==> Served(t, pending[1..], e)
  {
    assert forall k :: 0 <= k < |pending| - 1 ==> pending[1..][k] == pending[k + 1];
  }

  /** One iteration: promoting the user at the head of the queue. */
  lemma PromoteHead(t: Ledger, r: Ledger, pending: seq<nat>, e: EventId)
    requires PromotionsOnly(t, r) && OthersKept(t, r, e)
    requires Queue(t, pending, e) && |pending| > 0
    requires Waiting(r, pending, e) && PromotedServed(t, r, pending, e)
    ensures PromotionsOnly(t, PromoteUser(r, t[pending[0]].user, e))
    ensures OthersKept(t, PromoteUser(r, t[pending[0]].user, e), e)
    ensures Waiting(PromoteUser(r, t[pending[0]].user, e), pending[1..], e)
    ensures PromotedServed(t, PromoteUser(r, t[pending[0]].user, e), pending[1..], e)
    ensures Unique(t) ==> Count(PromoteUser(r, t[pending[0]].user, e), e, Registered) <= Count(r, e, Registered) + 1
  {
    var head := pending[0];
    var r' := PromoteUser(r, t[head].user, e);
    PopKeepsQueue(t, pending, e);
    assert r'[head].status == Registered;
    if Unique(t) {
      // the head's pair has one row, so promoting it adds at most one to the main list
      PromotionsOnlyUnique(t, r);
      PromoteUserIsSetStatus(r, head);
      SetStatusCount(r, head, Registered, e, Registered);
    }
    if Unique(t) {
      forall i | 0 <= i < |t| && Holds(t[i], e, Reserve) && i != head
        ensures r'[i] == r[i]
      {
        UniqueApart(t, i, head);
      }
    }
  }

  /** The inner while loop of `update_registrations` for one event: while the
      main list has room and the reserve list snapshot is not empty, promote
      every row of the user at the head of the snapshot and pop the head. */
  method PromoteWaiting(t: Ledger, ev: Event) returns (r: Ledger)
    ensures PromotionsOnly(t, r)
    ensures Settled(r, ev)
    ensures forall i :: 0 <= i < |t| && t[i].event != ev.id ==> r[i] == t[i]
    ensures Unique(t) ==> FifoPromoted(t, r)
    ensures Unique(t) && MainBounded(t, ev) ==> MainBounded(r, ev)
  {
    r := t;
    var pending := ReserveRows(t, ev.id);
    while Count(r, ev.id, Registered) < ev.maxVolunteers && |pending| > 0
      invariant PromotionsOnly(t, r) && OthersKept(t, r, ev.id)
      invariant Queue(t, pending, ev.id)
      invariant Waiting(r, pending, ev.id)
      invariant Served(t, pending, ev.id)
      invariant PromotedServed(t, r, pending, ev.id)
      invariant Unique(t) && MainBounded(t, ev) ==> MainBounded(r, ev)
      decreases |pending|
    {
      PromoteHead(t, r, pending, ev.id);
      PopKeepsQueue(t, pending, ev.id);
      r := PromoteUser(r, t[pending[0]].user, ev.id);
      pending := pending[1..];
    }
    CountZeroIff(r, ev.id, Reserve);
    if Unique(t) {
      forall i, j | 0 <= i < j < |t| && t[i].event == t[j].event
                    && t[i].status == Reserve && t[j].status == Reserve && r[j].status == Registered
        ensures r[i].status == Registered
      {
        assert t[j].event == ev.id;
        assert j !in pending;
        assert i !in pending;
      }
    }
  }

  /** `update_registrations`: the per-event pass over every event, in
      events-table order. Afterwards every listed event is settled, only
      Reserve-to-Registered rewrites happened, rows of unlisted events are as
      they were, and (with one row per pair) each event was served in arrival
      order. */
  method UpdateRegistrations(events: seq<Event>, t: Ledger) returns (r: Ledger)
    ensures PromotionsOnly(t, r)
    ensures forall k :: 0 <= k < |events| ==> Settled(r, events[k])
    ensures forall i :: 0 <= i < |t| && !Listed(events, t[i].event) ==> r[i] == t[i]
    ensures Unique(t) ==> Unique(r) && FifoPromoted(t, r)
    ensures Unique(t) ==> BoundsKept(events, |events|, t, r)
  {
    r := t;
    var n := 0;
    while n < |events|
      invariant n <= |events|
      invariant PromotionsOnly(t, r)
      invariant forall k :: 0 <= k < n ==> Settled(r, events[k])
      invariant forall i :: 0 <= i < |t| && !Listed(events[..n], t[i].event) ==> r[i] == t[i]
      invariant Unique(t) ==> FifoPromoted(t, r)
      invariant Unique(t) ==> BoundsKept(events, n, t, r)
    {
      var r' := PromoteWaiting(r, events[n]);
      if Unique(t) {
        PromotionsOnlyUnique(t, r);
        forall k | 0 <= k <= n && ListedOnce(events, k) && MainBounded(t, events[k])
          ensures MainBounded(r', events[k])
        {
          if k == n {
            // no earlier pass touched this event's rows
            assert !Listed(events[..n], events[n].id);
            KeptCount(t, r, events[n].id);
          } else {
            KeptCount(r, r', events[k].id);
          }
        }
      }
      forall k | 0 <= k < n
        ensures Settled(r', events[k])
      {
        SettledStable(r, r', events[k]);
      }
      if Unique(t) {
        PromotionsOnlyUnique(t, r);
        FifoCompose(t, r, r');
      }
      assert forall k :: 0 <= k < n ==> events[..n + 1][k] == events[..n][k];
      assert events[..n + 1][n] == events[n];
      r := r';
      n := n + 1;
    }
    assert events[..n] == events;
    if Unique(t) {
      PromotionsOnlyUnique(t, r);
    }
  }
}

=== FILE: main12.dfy ===
/** Version 12: the same register handler as version 13, and a My
    Registrations tab that only displays rows (it has no cancel button). */
module Main12 {
  import opened Registrations
  import Main13

  /** The Register for Events handler; its code is line for line the one of
      version 13. No row is added for a user who already holds one or when
      both lists are full; otherwise exactly one row goes at the end. */
  function Register(seen: Ledger, current: Ledger, ev: Event, u: UserId): (r: Step)
    ensures Has(seen, u, ev.id) || Placement(seen, ev).None? ==> r.after == current
    ensures !Has(seen, u, ev.id) && Placement(seen, ev).Some? ==>
      && |r.after| == |current| + 1
      && r.after[..|current|] == current
      && r.after[|current|] == Row(u, ev.id, Placement(seen, ev).value)
  {
    var r := Main13.Register(seen, current, ev, u);
    assert r.verdict.Added? ==> r.after[..|current|] == current;
    r
  }

  /** The rows the My Registrations tab lists for user `u`, in table order.
      The tab only reads them. */
  function MyRegistrations(t: Ledger, u: UserId): (r: Ledger)
    ensures forall x :: x in r <==> x in t && x.user == u
    ensures |r| <= |t|
  {
    if t == [] then []
    else
      var rest := MyRegistrations(t[1..], u);
      if t[0].user == u then [t[0]] + rest else rest
  }

  /** The tab lists every row of the user, each once, in table order. */
  lemma {:induction false} MyRegistrationsInOrder(t: Ledger, u: UserId)
    ensures exists idx :: KeptInOrder(t, MyRegistrations(t, u), idx, OfUser(u))
  {
    var k := OfUser(u);
    if t == [] {
      assert KeptInOrder(t, MyRegistrations(t, u), [], k);
    } else {
      MyRegistrationsInOrder(t[1..], u);
      var rest := MyRegistrations(t[1..], u);
      var idx :| KeptInOrder(t[1..], rest, idx, k);
      if t[0].user == u {
        KeptWithHead(t, rest, idx, k);
        assert KeptInOrder(t, MyRegistrations(t, u), [0] + Shift(idx), k);
      } else {
        KeptPastHead(t, rest, idx, k);
        assert KeptInOrder(t, MyRegistrations(t, u), Shift(idx), k);
      }
    }
  }
}

=== FILE: main13.dfy ===
/** Version 13: the status is decided once per page load, from the table as
    first read; the click reloads the table and appends to the reloaded copy.
    Cancel is the same code as the live version. */
module Main13 {
  import opened Registrations
  import Main14

  /** The Register for Events handler. `seen` is the table read when the page
      was built (it decides the status and whether the button is shown);
      `current` is the table reloaded on the click (the row is appended to it). */
  function Register(seen: Ledger, current: Ledger, ev: Event, u: UserId): (r: Step)
    ensures r.verdict.Added? <==> !Has(seen, u, ev.id) && Placement(seen, ev).Some?
    ensures r.verdict.Added? ==> Placement(seen, ev) == Some(r.verdict.status)
    ensures r.verdict.Added? ==> r.after == current + [Row(u, ev.id, r.verdict.status)]
    ensures !r.verdict.Added? ==> r.after == current
    ensures r.verdict == AlreadyRegistered <==> Has(seen, u, ev.id)
  {
    var decision := Placement(seen, ev);
    if !Has(seen, u, ev.id) && decision.Some? then
      Step(Added(decision.value), current + [Row(u, ev.id, decision.value)])
    else if Has(seen, u, ev.id) then Step(AlreadyRegistered, current)
    else Step(Full, current)
  }

  /** When nothing changed between the page load and the click, the
      precomputed decision is exactly the live version's register. */
  lemma AtomicRegisterIsMain14(t: Ledger, ev: Event, u: UserId)
    ensures Register(t, t, ev, u) == Main14.Register(t, ev, u)
  {
  }

  /** The My Registrations cancel button; same code as the live version. */
  function Cancel(t: Ledger, ev: Event, i: nat): (r: Cancellation)
    requires i < |t| && t[i].event == ev.id
    ensures |r.after| == |t| - 1
    ensures r.promoted.Some? <==>
      Count(Drop(t, i), ev.id, Registered) < ev.maxVolunteers && FirstReserve(Drop(t, i), ev.id).Some?
    ensures r.promoted.Some? ==> r.promoted == FirstReserve(Drop(t, i), ev.id)
    ensures r.promoted.None? ==> r.after == Drop(t, i)
    ensures r.promoted.Some? ==> r.after == SetStatus(Drop(t, i), r.promoted.value, Registered)
    ensures forall e :: e != ev.id ==> EventRows(r.after, e) == EventRows(t, e)
  {
    Main14.Cancel(t, ev, i)
  }

  /** The cancel keeps the event within both bounds, keeps the reserve list
      empty unless the main list is full, and keeps one row per pair. */
  lemma CancelPreserves(t: Ledger, ev: Event, i: nat)
    requires i < |t| && t[i].event == ev.id
    requires Consistent(t, ev) && Unique(t)
    ensures Consistent(Cancel(t, ev, i).after, ev)
    ensures Unique(Cancel(t, ev, i).after)
  {
    Main14.CancelPreserves(t, ev, i);
  }
}

=== FILE: main14.dfy ===
/** The live version of the app: register picks the main list, then the
    reserve list, then refuses; cancel drops one row and may promote the
    earliest waiting row of the same event. */
module Main14 {
  import opened Registrations

  /** The View Events handler for one event and one user. A user who already
      holds a row of the event is not offered registration. */
  function Register(t: Ledger, ev: Event, u: UserId): (r: Step)
    ensures r.verdict == AlreadyRegistered <==> Has(t, u, ev.id)
    ensures r.verdict.Added? <==> !Has(t, u, ev.id) && Placement(t, ev).Some?
    ensures r.verdict.Added? ==> Placement(t, ev) == Some(r.verdict.status)
    ensures r.verdict == Full <==>
      !Has(t, u, ev.id) && Count(t, ev.id, Registered) >= ev.maxVolunteers
                        && Count(t, ev.id, Reserve) >= ev.reserveCapacity
    ensures r.verdict.Added? ==> r.after == t + [Row(u, ev.id, r.verdict.status)]
    ensures !r.verdict.Added? ==> r.after == t
  {
    if Has(t, u, ev.id) then Step(AlreadyRegistered, t)
    else if Count(t, ev.id, Registered) < ev.maxVolunteers then
      Step(Added(Registered), t + [Row(u, ev.id, Registered)])
    else if Count(t, ev.id, Reserve) < ev.reserveCapacity then
      Step(Added(Reserve), t + [Row(u, ev.id, Reserve)])
    else Step(Full, t)
  }

  /** Registering keeps the event consistent, keeps one row per pair, and
      leaves every other event's rows alone. */
  lemma RegisterPreserves(t: Ledger, ev: Event, u: UserId)
    requires Consistent(t, ev) && Unique(t)
    ensures Consistent(Register(t, ev, u).after, ev)
    ensures Unique(Register(t, ev, u).after)
    ensures forall e :: e != ev.id ==> EventRows(Register(t, ev, u).after, e) == EventRows(t, e)
  {
    var r := Register(t, ev, u);
    if r.verdict.Added? {
      var x := Row(u, ev.id, r.verdict.status);
      PlacementKeepsConsistent(t, ev, u);
      UniqueAppend(t, x);
      forall e | e != ev.id
        ensures EventRows(r.after, e) == EventRows(t, e)
      {
        AppendOtherEvent(t, x, e);
      }
    }
  }

  /** A second click by the same user is refused and changes nothing. */
  lemma RegisterTwice(t: Ledger, ev: Event, u: UserId)
    requires Register(t, ev, u).verdict.Added?
    ensures Register(Register(t, ev, u).after, ev, u) == Step(AlreadyRegistered, Register(t, ev, u).after)
  {
    var a := Register(t, ev, u).after;
    assert a[|t|].user == u && a[|t|].event == ev.id;
  }

  /** The Cancel Registration button on row `i` of the user's own
      registrations: the row is dropped; then, if the event's main list has a
      free slot and its reserve list is not empty, the earliest Reserve row of
      the event becomes Registered. */
  function Cancel(t: Ledger, ev: Event, i: nat): (r: Cancellation)
    requires i < |t| && t[i].event == ev.id
    ensures |r.after| == |t| - 1
    ensures r.promoted.Some? <==>
      Count(Drop(t, i), ev.id, Registered) < ev.maxVolunteers && Count(Drop(t, i), ev.id, Reserve) > 0
    ensures r.promoted.None? ==> r.after == Drop(t, i)
    ensures r.promoted.Some? ==>
      && r.promoted.value < |r.after|
      && Holds(Drop(t, i)[r.promoted.value], ev.id, Reserve)
      && (forall k :: 0 <= k < r.promoted.value ==> !Holds(Drop(t, i)[k], ev.id, Reserve))
      && r.after == SetStatus(Drop(t, i), r.promoted.value, Registered)
    ensures forall e :: e != ev.id ==> EventRows(r.after, e) == EventRows(t, e)
  {
    var rest := Drop(t, i);
    assert forall e :: e != ev.id ==> EventRows(rest, e) == EventRows(t, e) by {
      forall e | e != ev.id ensures EventRows(rest, e) == EventRows(t, e) {
        DropOtherEvent(t, i, e);
      }
    }
    match FirstReserve(rest, ev.id)
    case None => Cancellation(None, rest)
    case Some(j) =>
      if Count(rest, ev.id, Registered) < ev.maxVolunteers then
        assert forall e :: e != ev.id ==> EventRows(SetStatus(rest, j, Registered), e) == EventRows(rest, e) by {
          forall e | e != ev.id ensures EventRows(SetStatus(rest, j, Registered), e) == EventRows(rest, e) {
            SetStatusOtherEvent(rest, j, Registered, e);
          }
        }
        Cancellation(Some(j), SetStatus(rest, j, Registered))
      else Cancellation(None, rest)
  }

  /** Cancelling keeps the event consistent and keeps one row per pair. */
  lemma CancelPreserves(t: Ledger, ev: Event, i: nat)
    requires i < |t| && t[i].event == ev.id
    requires Consistent(t, ev) && Unique(t)
    ensures Consistent(Cancel(t, ev, i).after, ev)
    ensures Unique(Cancel(t, ev, i).after)
  {
    var rest := Drop(t, i);
    var r := Cancel(t, ev, i);
    DropCount(t, i, ev.id, Registered);
    DropCount(t, i, ev.id, Reserve);
    UniqueDrop(t, i);
    if r.promoted.Some? {
      var j := r.promoted.value;
      SetStatusCount(rest, j, Registered, ev.id, Registered);
      SetStatusCount(rest, j, Registered, ev.id, Reserve);
      UniqueSetStatus(rest, j, Registered);
    }
  }

  /** On a consistent event, cancelling a Reserve row never promotes anyone,
      and cancelling a Registered row promotes exactly when someone waits. */
  lemma CancelPromotesOnlyVacatedSlot(t: Ledger, ev: Event, i: nat)
    requires i < |t| && t[i].event == ev.id && Consistent(t, ev)
    ensures t[i].status == Reserve ==> Cancel(t, ev, i).promoted.None?
    ensures t[i].status == Registered ==>
      (Cancel(t, ev, i).promoted.Some? <==> Count(t, ev.id, Reserve) > 0)
  {
    DropCount(t, i, ev.id, Registered);
    DropCount(t, i, ev.id, Reserve);
  }

  /** The four registrations of the scenario below, one step at a time. */
  lemma ScenarioFill(r1: Row<Status>, r2: Row<Status>, r3: Row<Status>)
    requires r1 == Row("U1", "E", Registered) && r2 == Row("U2", "E", Registered)
    requires r3 == Row("U3", "E", Reserve)
    ensures Register([], Event("E", 2, 1), "U1") == Step(Added(Registered), [r1])
    ensures Register([r1], Event("E", 2, 1), "U2") == Step(Added(Registered), [r1, r2])
    ensures Register([r1, r2], Event("E", 2, 1), "U3") == Step(Added(Reserve), [r1, r2, r3])
    ensures Register([r1, r2, r3], Event("E", 2, 1), "U4") == Step(Full, [r1, r2, r3])
  {
    CountSingle(r1, "E", Registered);
    CountSingle(r1, "E", Reserve);
    assert [r1] + [r2] == [r1, r2] && [r1, r2] + [r3] == [r1, r2, r3];
    CountAppend([r1], r2, "E", Registered);
    CountAppend([r1], r2, "E", Reserve);
    CountAppend([r1, r2], r3, "E", Registered);
    CountAppend([r1, r2], r3, "E", Reserve);
    assert !Has([r1], "U2", "E");
    assert !Has([r1, r2], "U3", "E");
    assert !Has([r1, r2, r3], "U4", "E");
  }

  /** Main capacity 2, reserve capacity 1: two users get the main list, the
      third waits, the fourth is refused; when the first cancels, the waiting
      user is promoted and the fourth can then join the reserve list. */
  lemma Scenario()
    ensures
      var ev := Event("E", 2, 1);
      var s1 := Register([], ev, "U1");
      var s2 := Register(s1.after, ev, "U2");
      var s3 := Register(s2.after, ev, "U3");
      var s4 := Register(s3.after, ev, "U4");
      var c := Cancel(s4.after, ev, 0);
      var s5 := Register(c.after, ev, "U4");
      && s1.verdict == Added(Registered)
      && s2.verdict == Added(Registered)
      && s3.verdict == Added(Reserve)
      && s4.verdict == Full
      && c.promoted == Some(1)
      && c.after == [Row("U2", "E", Registered), Row("U3", "E", Registered)]
      && s5.verdict == Added(Reserve)
  {
    var ev := Event("E", 2, 1);
    var r1 := Row("U1", "E", Registered);
    var r2 := Row("U2", "E", Registered);
    var r3 := Row("U3", "E", Reserve);
    var r3' := r3.(status := Registered);
    ScenarioFill(r1, r2, r3);
    var rest := [r2, r3];
    assert Drop([r1, r2, r3], 0) == rest;
    assert rest == [r2] + [r3];
    CountAppend([r2], r3, "E", Registered);
    CountSingle(r2, "E", Registered);
    assert FirstReserve(rest, "E") == Some(1) by {
      assert rest[1..] == [r3];
    }
    assert Cancel([r1, r2, r3], ev, 0) == Cancellation(Some(1), [r2, r3']);
    assert [r2, r3'] == [r2] + [r3'];
    CountAppend([r2], r3', "E", Registered);
    CountAppend([r2], r3', "E", Reserve);
    CountSingle(r2, "E", Reserve);
    assert !Has([r2, r3'], "U4", "E");
  }
}

=== FILE: main15.dfy ===
/** Version 15: the three-way placement rule with no duplicate check; the
    row is appended to a freshly reloaded table. */
module Main15 {
  import opened Registrations
  import Main14

  /** The Available Events handler. The counts come from the table as first
      read; whichever button is shown appends to the reloaded table, whether
      or not the user already holds a row of the event. */
  function Register(seen: Ledger, current: Ledger, ev: Event, u: UserId): (r: Step)
    ensures r.verdict.Added? <==> Placement(seen, ev).Some?
    ensures r.verdict.Added? ==> Placement(seen, ev) == Some(r.verdict.status)
    ensures r.verdict.Added? ==> r.after == current + [Row(u, ev.id, r.verdict.status)]
    ensures !r.verdict.Added? ==> r.verdict == Full && r.after == current
  {
    if Count(seen, ev.id, Registered) < ev.maxVolunteers then
      Step(Added(Registered), current + [Row(u, ev.id, Registered)])
    else if Count(seen, ev.id, Reserve) < ev.reserveCapacity then
      Step(Added(Reserve), current + [Row(u, ev.id, Reserve)])
    else Step(Full, current)
  }

  /** With no change between load and click, both capacity bounds hold after
      registering, and for a user without a row the handler is the live one. */
  lemma RegisterKeepsCapacity(t: Ledger, ev: Event, u: UserId)
    requires Consistent(t, ev)
    ensures Consistent(Register(t, t, ev, u).after, ev)
    ensures !Has(t, u, ev.id) ==> Register(t, t, ev, u) == Main14.Register(t, ev, u)
  {
    if Placement(t, ev).Some? {
      PlacementKeepsConsistent(t, ev, u);
    }
  }

  /** Nothing stops a second row for the same pair: one user registering twice
      for an event with room ends up holding two rows. */
  lemma DuplicateRowsPossible()
    ensures
      var ev := Event("E", 2, 0);
      var first := Register([], [], ev, "U1").after;
      var second := Register(first, first, ev, "U1").after;
      Unique(first) && !Unique(second) && second == [Row("U1", "E", Registered), Row("U1", "E", Registered)]
  {
    var ev := Event("E", 2, 0);
    var x := Row("U1", "E", Registered);
    assert Register([], [], ev, "U1").after == [x];
    CountSingle(x, "E", Registered);
    assert Register([x], [x], ev, "U1").after == [x, x];
    assert [x, x][0] == [x, x][1];
  }
}

=== FILE: main3.dfy ===
/** Version 3: the registrations table has no Status column; an event simply
    takes rows up to Max Volunteers. */
module Main3 {
  import opened Registrations

  /** A row of this version: user and event only. */
  type Entry = Row<()>

  datatype Outcome = Joined | AlreadyJoined | EventFull

  datatype Signup = Signup(outcome: Outcome, after: seq<Entry>)

  /** The Register button, shown while the event has fewer than Max
      Volunteers rows; a user who already holds a row is warned. When the
      event is full the button is not shown, even to a user holding a row. */
  function Register(t: seq<Entry>, ev: Event, u: UserId): (r: Signup)
    ensures r.outcome == EventFull <==> Size(t, ev.id) >= ev.maxVolunteers
    ensures r.outcome == AlreadyJoined <==> Size(t, ev.id) < ev.maxVolunteers && Has(t, u, ev.id)
    ensures r.outcome == Joined <==> Size(t, ev.id) < ev.maxVolunteers && !Has(t, u, ev.id)
    ensures r.outcome == Joined ==> r.after == t + [Row(u, ev.id, ())]
    ensures r.outcome != Joined ==> r.after == t
  {
    if Size(t, ev.id) < ev.maxVolunteers then
      if !Has(t, u, ev.id) then Signup(Joined, t + [Row(u, ev.id, ())])
      else Signup(AlreadyJoined, t)
    else Signup(EventFull, t)
  }

  /** Registering keeps the event within Max Volunteers rows and one row per
      pair; a join adds exactly one row to the event. */
  lemma RegisterPreserves(t: seq<Entry>, ev: Event, u: UserId)
    requires Size(t, ev.id) <= ev.maxVolunteers && Unique(t)
    ensures Size(Register(t, ev, u).after, ev.id) <= ev.maxVolunteers
    ensures Unique(Register(t, ev, u).after)
    ensures Register(t, ev, u).outcome == Joined ==>
      Size(Register(t, ev, u).after, ev.id) == Size(t, ev.id) + 1 && Has(Register(t, ev, u).after, u, ev.id)
  {
    var r := Register(t, ev, u);
    if r.outcome == Joined {
      var x: Entry := Row(u, ev.id, ());
      SizeConcat(t, [x], ev.id);
      SizeSingle(x, ev.id);
      UniqueAppend(t, x);
      assert r.after[|t|] == x;
    }
  }

  /** The Cancel Registration button keeps every row except the user's rows
      for the event: the bound and uniqueness survive and the user no longer
      holds a row. */
  lemma CancelPreserves(t: seq<Entry>, ev: Event, u: UserId)
    requires Size(t, ev.id) <= ev.maxVolunteers
    ensures !Has(Withdraw(t, u, ev.id), u, ev.id)
    ensures Size(Withdraw(t, u, ev.id), ev.id) <= ev.maxVolunteers
    ensures Unique(t) ==> Unique(Withdraw(t, u, ev.id))
  {
    WithdrawSize(t, u, ev.id, ev.id);
    if Unique(t) {
      WithdrawUnique(t, u, ev.id);
    }
  }
}

=== FILE: main4.dfy ===
/** Version 4: the three-way placement decided from the table loaded with the
    page, a participant number in the confirmation, and a cancel that
    promotes the first waiting user whenever there is one. The reserve branch
    of the register compares a number with text and raises while the page is
    built; `RegisterFixed` is the register with that comparison repaired. */
module Main4 {
  import opened Registrations
  import Main14

  /** What the user panel does with a click on a Register button: the
      verdict, the table after the click and the number shown in the
      confirmation (0 when nothing was added); or the page stops with a type
      error before the button is reached, and the table stays as it was. */
  datatype Receipt =
    | Receipt(verdict: Verdict, after: Ledger, number: nat)
    | Raised(after: Ledger)

  /** The main list of the event has no room left. */
  predicate MainFull(t: Ledger, ev: Event) {
    Count(t, ev.id, Registered) >= ev.maxVolunteers
  }

  /** The Available Events tab walks the events in table order. For an event
      whose main list is full it compares the reserve count with the Reserve
      Capacity cell, which was loaded as text and never converted to a
      number; the comparison raises and the rest of the page is not built.
      So the page stops at or before event `k` exactly when one of the events
      up to `k` has a full main list. */
  predicate StopsBy(events: seq<Event>, t: Ledger, k: nat)
    requires k < |events|
  {
    exists j :: 0 <= j <= k && MainFull(t, events[j])
  }

  /** The whole page, with the Your Registered Events tab and its cancel
      buttons, is built only when no event has a full main list. */
  predicate PageBuilt(events: seq<Event>, t: Ledger) {
    forall j :: 0 <= j < |events| ==> !MainFull(t, events[j])
  }

  /** The Register button of event `events[k]`, as written. The button is
      reached only when the page has not stopped at an earlier event, and it
      is a main-list button (an event with a full main list stops the page
      itself). A user who already holds a row is warned; anyone else is added
      as Registered and told their position among all rows of the event. */
  function Register(events: seq<Event>, t: Ledger, k: nat, u: UserId): (r: Receipt)
    requires k < |events|
    ensures r.Raised? <==> StopsBy(events, t, k)
    ensures r.Raised? ==> r.after == t
    ensures r.Receipt? ==> (r.verdict == AlreadyRegistered <==> Has(t, u, events[k].id))
    ensures r.Receipt? && !Has(t, u, events[k].id) ==>
      && r.verdict == Added(Registered)
      && r.after == t + [Row(u, events[k].id, Registered)]
      && r.number == Size(t, events[k].id) + 1
    ensures r.Receipt? && Has(t, u, events[k].id) ==> r.after == t && r.number == 0
  {
    var ev := events[k];
    var x := Row(u, ev.id, Registered);
    if StopsBy(events, t, k) then Raised(t)
    else
      assert !MainFull(t, events[k]);
      if !Has(t, u, ev.id) then
        SizeConcat(t, [x], ev.id);
        SizeSingle(x, ev.id);
        Receipt(Added(Registered), t + [x], Size(t + [x], ev.id))
      else Receipt(AlreadyRegistered, t, 0)
  }

  /** The register with the Reserve Capacity cell read as a number, as the
      later versions do. A reserve user is told their position on the
      reserve list. */
  function RegisterFixed(t: Ledger, ev: Event, u: UserId): (r: Receipt)
    ensures r.Receipt?
    ensures r.verdict == Full <==> Placement(t, ev).None?
    ensures r.verdict == AlreadyRegistered <==> Placement(t, ev).Some? && Has(t, u, ev.id)
    ensures r.verdict.Added? <==> Placement(t, ev).Some? && !Has(t, u, ev.id)
    ensures r.verdict.Added? ==>
      && Placement(t, ev) == Some(r.verdict.status)
      && r.after == t + [Row(u, ev.id, r.verdict.status)]
    ensures r.verdict == Added(Registered) ==> r.number == Size(t, ev.id) + 1
    ensures r.verdict == Added(Reserve) ==> r.number == Count(t, ev.id, Reserve) + 1
    ensures !r.verdict.Added? ==> r.after == t && r.number == 0
  {
    var x := Row(u, ev.id, Registered);
    var y := Row(u, ev.id, Reserve);
    if Count(t, ev.id, Registered) < ev.maxVolunteers then
      if !Has(t, u, ev.id) then
        SizeConcat(t, [x], ev.id);
        SizeSingle(x, ev.id);
        Receipt(Added(Registered), t + [x], Size(t + [x], ev.id))
      else Receipt(AlreadyRegistered, t, 0)
    else if Count(t, ev.id, Reserve) < ev.reserveCapacity then
      if !Has(t, u, ev.id) then
        CountAppend(t, y, ev.id, Reserve);
        Receipt(Added(Reserve), t + [y], Count(t + [y], ev.id, Reserve))
      else Receipt(AlreadyRegistered, t, 0)
    else Receipt(Full, t, 0)
  }

  /** The register as written agrees with the corrected one while no event
      up to this one has a full main list. It raises where the corrected one
      would put a new user on a reserve list with room, and also for an event
      with room behind an event whose main list is full. So it never adds a
      Reserve row. */
  lemma RegisterRaises(events: seq<Event>, t: Ledger, k: nat, u: UserId)
    requires k < |events|
    ensures !StopsBy(events, t, k) ==> Register(events, t, k, u) == RegisterFixed(t, events[k], u)
    ensures MainFull(t, events[k]) && Count(t, events[k].id, Reserve) < events[k].reserveCapacity
            && !Has(t, u, events[k].id) ==>
      Register(events, t, k, u).Raised? && RegisterFixed(t, events[k], u).verdict == Added(Reserve)
    ensures (exists j :: 0 <= j < k && MainFull(t, events[j])) && !Has(t, u, events[k].id)
            && !MainFull(t, events[k]) ==>
      Register(events, t, k, u).Raised? && RegisterFixed(t, events[k], u).verdict == Added(Registered)
    ensures forall e :: Count(Register(events, t, k, u).after, e, Reserve) == Count(t, e, Reserve)
  {
    var r := Register(events, t, k, u);
    if r.Receipt? && !Has(t, u, events[k].id) {
      forall e
        ensures Count(r.after, e, Reserve) == Count(t, e, Reserve)
      {
        CountAppend(t, Row(u, events[k].id, Registered), e, Reserve);
      }
    }
  }

  /** Apart from the number shown, the corrected register is the live
      version's register whenever the lists have room; when both are full, a
      user who already holds a row is told the event is full rather than
      warned. */
  lemma RegisterIsMain14(t: Ledger, ev: Event, u: UserId)
    ensures Placement(t, ev).Some? ==>
      Step(RegisterFixed(t, ev, u).verdict, RegisterFixed(t, ev, u).after) == Main14.Register(t, ev, u)
    ensures Placement(t, ev).None? && Has(t, u, ev.id) ==>
      RegisterFixed(t, ev, u).verdict == Full && Main14.Register(t, ev, u).verdict == AlreadyRegistered
  {
  }

  /** The Cancel Registration button, as written: every row of the pair is
      dropped, then the user of the first Reserve row of the event (if any)
      is promoted, whether or not the main list has room. */
  function Cancel(t: Ledger, ev: Event, u: UserId): (r: Cancellation)
    ensures r.promoted.Some? <==> Count(Withdraw(t, u, ev.id), ev.id, Reserve) > 0
    ensures r.promoted.None? ==> r.after == Withdraw(t, u, ev.id)
    ensures r.promoted.Some? ==>
      && r.promoted == FirstReserve(Withdraw(t, u, ev.id), ev.id)
      && r.after == PromoteUser(Withdraw(t, u, ev.id), Withdraw(t, u, ev.id)[r.promoted.value].user, ev.id)
  {
    var rest := Withdraw(t, u, ev.id);
    match FirstReserve(rest, ev.id)
    case None => Cancellation(None, rest)
    case Some(j) => Cancellation(Some(j), PromoteUser(rest, rest[j].user, ev.id))
  }

  /** The table of the counterexample below is consistent and holds one row
      per pair. */
  lemma OverfillTable(a: Row<Status>, b: Row<Status>, c: Row<Status>)
    requires a == Row("A", "E", Registered) && b == Row("B", "E", Reserve) && c == Row("C", "E", Reserve)
    ensures Consistent([a, b, c], Event("E", 1, 2)) && Unique([a, b, c])
    ensures Unique([a, b]) && Count([a, b], "E", Registered) == 1
  {
    assert [a, b, c] == [a, b] + [c] && [a, b] == [a] + [b];
    CountSingle(a, "E", Registered);
    CountSingle(a, "E", Reserve);
    CountAppend([a], b, "E", Registered);
    CountAppend([a], b, "E", Reserve);
    CountAppend([a, b], c, "E", Registered);
    CountAppend([a, b], c, "E", Reserve);
  }

  /** The table of the counterexample below comes from three clicks on the
      corrected register. As written, the register raises on the second
      click, and on that table the page stops before the cancel buttons, so
      the counterexample needs the register's comparison repaired. */
  lemma OverfillReachable(a: Row<Status>, b: Row<Status>, c: Row<Status>)
    requires a == Row("A", "E", Registered) && b == Row("B", "E", Reserve) && c == Row("C", "E", Reserve)
    ensures RegisterFixed([], Event("E", 1, 2), "A").after == [a]
    ensures RegisterFixed([a], Event("E", 1, 2), "B").after == [a, b]
    ensures RegisterFixed([a, b], Event("E", 1, 2), "C").after == [a, b, c]
    ensures Register([Event("E", 1, 2)], [a], 0, "B").Raised?
    ensures !PageBuilt([Event("E", 1, 2)], [a, b, c])
  {
    CountSingle(a, "E", Registered);
    CountSingle(a, "E", Reserve);
    assert [a] + [b] == [a, b] && [a, b] + [c] == [a, b, c];
    CountAppend([a], b, "E", Registered);
    CountAppend([a], b, "E", Reserve);
    assert !Has([a], "B", "E");
    assert !Has([a, b], "C", "E");
  }

  /** Cancelling a waiting user while the main list is full still promotes
      the first waiting user, so the main list grows past Max Volunteers. */
  lemma CancelOverfillsMainList()
    ensures
      var ev := Event("E", 1, 2);
      var t := [Row("A", "E", Registered), Row("B", "E", Reserve), Row("C", "E", Reserve)];
      && Consistent(t, ev) && Unique(t)
      && Count(Cancel(t, ev, "C").after, "E", Registered) == 2 > ev.maxVolunteers
  {
    var ev := Event("E", 1, 2);
    var a, b, c := Row("A", "E", Registered), Row("B", "E", Reserve), Row("C", "E", Reserve);
    var t := [a, b, c];
    OverfillTable(a, b, c);
    assert [a, b, c][1..] == [b, c] && [b, c][1..] == [c] && [c][1..] == [];
    assert Withdraw([c], "C", "E") == [];
    assert Withdraw([b, c], "C", "E") == [b] + [];
    assert Withdraw(t, "C", "E") == [a] + [b];
    assert [a, b][1..] == [b];
    assert FirstReserve([a, b], "E") == Some(1);
    PromoteUserIsSetStatus([a, b], 1);
    assert Cancel(t, ev, "C").after == SetStatus([a, b], 1, Registered);
    SetStatusCount([a, b], 1, Registered, "E", Registered);
  }

  /** The corrected cancel: the first waiting user is promoted only into a
      free main-list slot. */
  function CancelFixed(t: Ledger, ev: Event, u: UserId): (r: Cancellation)
    ensures r.promoted.Some? <==>
      Count(Withdraw(t, u, ev.id), ev.id, Registered) < ev.maxVolunteers
      && Count(Withdraw(t, u, ev.id), ev.id, Reserve) > 0
    ensures r.promoted.None? ==> r.after == Withdraw(t, u, ev.id)
    ensures r.promoted.Some? ==>
      && r.promoted == FirstReserve(Withdraw(t, u, ev.id), ev.id)
      && r.after == PromoteUser(Withdraw(t, u, ev.id), Withdraw(t, u, ev.id)[r.promoted.value].user, ev.id)
  {
    var rest := Withdraw(t, u, ev.id);
    match FirstReserve(rest, ev.id)
    case None => Cancellation(None, rest)
    case Some(j) =>
      if Count(rest, ev.id, Registered) < ev.maxVolunteers then
        Cancellation(Some(j), PromoteUser(rest, rest[j].user, ev.id))
      else Cancellation(None, rest)
  }

  /** With one row per pair, the corrected cancel of a user holding row `i`
      is the live version's cancel of that row. */
  lemma CancelFixedIsMain14(t: Ledger, ev: Event, i: nat)
    requires i < |t| && t[i].event == ev.id && Unique(t)
    ensures CancelFixed(t, ev, t[i].user) == Main14.Cancel(t, ev, i)
  {
    WithdrawIsDrop(t, i);
    UniqueDrop(t, i);
    var rest := Drop(t, i);
    var r := CancelFixed(t, ev, t[i].user);
    if r.promoted.Some? {
      PromoteUserIsSetStatus(rest, r.promoted.value);
    }
  }

  /** The corrected cancel keeps the event consistent and one row per pair,
      whether or not the user held a row. */
  lemma CancelFixedPreserves(t: Ledger, ev: Event, u: UserId)
    requires Consistent(t, ev) && Unique(t)
    ensures Consistent(CancelFixed(t, ev, u).after, ev)
    ensures Unique(CancelFixed(t, ev, u).after)
  {
    if Has(t, u, ev.id) {
      var i :| 0 <= i < |t| && t[i].user == u && t[i].event == ev.id;
      CancelFixedIsMain14(t, ev, i);
      Main14.CancelPreserves(t, ev, i);
    } else {
      WithdrawAbsent(t, u, ev.id);
    }
  }
}

=== FILE: main5.dfy ===
/** Version 5: the capacity check counts every row of the event, the reserve
    list has no bound, a user's cancel promotes the first waiting row
    whenever there is one, and the admin's cancel promotes nobody. */
module Main5 {
  import opened Registrations

  /** The Register for an Event handler. The session user name is the user
      id; with an empty one the click does nothing. The status is Registered
      while the event has fewer rows (of either status) than Max Volunteers,
      Reserve otherwise; a pair that already holds a row gets a warning. */
  function Register(t: Ledger, ev: Event, u: UserId): (r: Step)
    ensures u == "" ==> r == Step(NotSignedIn, t)
    ensures r.verdict.Added? <==> u != "" && !Has(t, u, ev.id)
    ensures r.verdict == AlreadyRegistered <==> u != "" && Has(t, u, ev.id)
    ensures r.verdict == Added(Registered) <==>
      u != "" && !Has(t, u, ev.id) && Count(t, ev.id, Registered) + Count(t, ev.id, Reserve) < ev.maxVolunteers
    ensures r.verdict.Added? ==> r.after == t + [Row(u, ev.id, r.verdict.status)]
    ensures !r.verdict.Added? ==> r.after == t
  {
    SizeByStatus(t, ev.id);
    if u == "" then Step(NotSignedIn, t)
    else
      var status := if Size(t, ev.id) < ev.maxVolunteers then Registered else Reserve;
      if !Has(t, u, ev.id) then Step(Added(status), t + [Row(u, ev.id, status)])
      else Step(AlreadyRegistered, t)
  }

  /** Registering keeps the main list within Max Volunteers and one row per
      pair; it never refuses for lack of room. */
  lemma RegisterPreserves(t: Ledger, ev: Event, u: UserId)
    requires Count(t, ev.id, Registered) <= ev.maxVolunteers && Unique(t)
    ensures Count(Register(t, ev, u).after, ev.id, Registered) <= ev.maxVolunteers
    ensures Unique(Register(t, ev, u).after)
    ensures Register(t, ev, u).verdict != Full
  {
    var r := Register(t, ev, u);
    if r.verdict.Added? {
      CountAppend(t, Row(u, ev.id, r.verdict.status), ev.id, Registered);
      UniqueAppend(t, Row(u, ev.id, r.verdict.status));
    }
  }

  /** The user's Cancel Registration button on row `i`, as written: the row is
      dropped, then the first Reserve row of its event (if any) becomes
      Registered, whatever the main list holds and whatever the cancelled
      row's status was. */
  function Cancel(t: Ledger, i: nat): (r: Cancellation)
    requires i < |t|
    ensures |r.after| == |t| - 1
    ensures r.promoted.Some? <==> Count(Drop(t, i), t[i].event, Reserve) > 0
    ensures r.promoted.None? ==> r.after == Drop(t, i)
    ensures r.promoted.Some? ==>
      && r.promoted == FirstReserve(Drop(t, i), t[i].event)
      && r.after == SetStatus(Drop(t, i), r.promoted.value, Registered)
  {
    var rest := Drop(t, i);
    match FirstReserve(rest, t[i].event)
    case None => Cancellation(None, rest)
    case Some(j) => Cancellation(Some(j), SetStatus(rest, j, Registered))
  }

  /** Cancelling a Reserve row of an event whose main list is full still
      promotes, so the main list grows past Max Volunteers. */
  lemma CancelOverfillsMainList()
    ensures
      var ev := Event("E", 1, 0);
      var t := [Row("A", "E", Registered), Row("B", "E", Reserve), Row("C", "E", Reserve)];
      && Count(t, "E", Registered) <= ev.maxVolunteers
      && Count(Cancel(t, 2).after, "E", Registered) == 2 > ev.maxVolunteers
  {
    var a, b, c := Row("A", "E", Registered), Row("B", "E", Reserve), Row("C", "E", Reserve);
    var t := [a, b, c];
    assert Drop(t, 2) == [a, b];
    assert Cancel(t, 2).after == [a, b.(status := Registered)];
  }

  /** The cancel the comment describes ("replace ... with the canceled user"):
      promote only when the main list has a free slot after the drop. */
  function CancelFixed(t: Ledger, ev: Event, i: nat): (r: Cancellation)
    requires i < |t| && t[i].event == ev.id
    ensures |r.after| == |t| - 1
    ensures r.promoted.Some? <==>
      Count(Drop(t, i), ev.id, Registered) < ev.maxVolunteers && Count(Drop(t, i), ev.id, Reserve) > 0
    ensures r.promoted.None? ==> r.after == Drop(t, i)
    ensures r.promoted.Some? ==>
      && r.promoted == FirstReserve(Drop(t, i), ev.id)
      && r.after == SetStatus(Drop(t, i), r.promoted.value, Registered)
  {
    var rest := Drop(t, i);
    match FirstReserve(rest, ev.id)
    case None => Cancellation(None, rest)
    case Some(j) =>
      if Count(rest, ev.id, Registered) < ev.maxVolunteers then Cancellation(Some(j), SetStatus(rest, j, Registered))
      else Cancellation(None, rest)
  }

  /** The corrected cancel keeps the main list within Max Volunteers and still
      hands a vacated main-list slot to the first waiting row. */
  lemma CancelFixedKeepsMainBound(t: Ledger, ev: Event, i: nat)
    requires i < |t| && t[i].event == ev.id
    requires Count(t, ev.id, Registered) <= ev.maxVolunteers
    ensures Count(CancelFixed(t, ev, i).after, ev.id, Registered) <= ev.maxVolunteers
    ensures t[i].status == Registered && Count(t, ev.id, Reserve) > 0 ==> CancelFixed(t, ev, i).promoted.Some?
  {
    var r := CancelFixed(t, ev, i);
    DropCount(t, i, ev.id, Registered);
    DropCount(t, i, ev.id, Reserve);
    if r.promoted.Some? {
      SetStatusCount(Drop(t, i), r.promoted.value, Registered, ev.id, Registered);
    }
  }

  /** The admin's cancel (drop every row of the pair) promotes nobody: no
      status changes, so the main list cannot grow. */
  lemma AdminCancelPreserves(t: Ledger, ev: Event, u: UserId)
    requires Count(t, ev.id, Registered) <= ev.maxVolunteers && Unique(t)
    ensures Count(Withdraw(t, u, ev.id), ev.id, Registered) <= ev.maxVolunteers
    ensures Count(Withdraw(t, u, ev.id), ev.id, Reserve) <= Count(t, ev.id, Reserve)
    ensures Unique(Withdraw(t, u, ev.id))
  {
    WithdrawCount(t, u, ev.id, ev.id, Registered);
    WithdrawCount(t, u, ev.id, ev.id, Reserve);
    WithdrawUnique(t, u, ev.id);
  }
}

=== FILE: main6.dfy ===
/** Version 6: a typed-in event id, one combined bound on all rows of an
    event, every accepted row Registered, and a cancel that drops one row
    without promoting anyone. */
module Main6 {
  import opened Registrations

  /** The Register for Event form. An empty id or an id no event carries is
      refused; an event holding Max Volunteers + Reserve Capacity rows (of
      any status) is fully booked; a user who already holds a row is warned;
      otherwise a Registered row goes at the end. */
  function Register(events: seq<Event>, t: Ledger, u: UserId, input: EventId): (r: Step)
    ensures input == "" ==> r == Step(MissingEventId, t)
    ensures input != "" && Lookup(events, input).None? ==> r == Step(UnknownEvent, t)
    ensures r.verdict.Added? ==>
      && Lookup(events, input).Some?
      && r.verdict.status == Registered
      && r.after == t + [Row(u, input, Registered)]
    ensures !r.verdict.Added? ==> r.after == t
    ensures input != "" && Lookup(events, input).Some? ==>
      var ev := Lookup(events, input).value;
      && (r.verdict == Full <==> Size(t, ev.id) >= ev.maxVolunteers + ev.reserveCapacity)
      && (r.verdict == AlreadyRegistered <==>
            Size(t, ev.id) < ev.maxVolunteers + ev.reserveCapacity && Has(t, u, ev.id))
      && (r.verdict.Added? <==> Size(t, ev.id) < ev.maxVolunteers + ev.reserveCapacity && !Has(t, u, ev.id))
  {
    if input == "" then Step(MissingEventId, t)
    else
      match Lookup(events, input)
      case None => Step(UnknownEvent, t)
      case Some(ev) =>
        if Size(t, ev.id) < ev.maxVolunteers + ev.reserveCapacity then
          if !Has(t, u, ev.id) then Step(Added(Registered), t + [Row(u, ev.id, Registered)])
          else Step(AlreadyRegistered, t)
        else Step(Full, t)
  }

  /** No two events share an id. The admin panel numbers a new event one past
      the number of events, so after a removal it can reissue an id that is
      still in use; this predicate does not always hold of real tables. */
  predicate DistinctIds(events: seq<Event>) {
    forall k, m :: 0 <= k < m < |events| ==> events[k].id != events[m].id
  }

  /** The combined bound and one row per pair hold after every registration. */
  lemma RegisterPreserves(events: seq<Event>, t: Ledger, u: UserId, input: EventId)
    requires Unique(t) && DistinctIds(events)
    requires forall k :: 0 <= k < |events| ==>
      Size(t, events[k].id) <= events[k].maxVolunteers + events[k].reserveCapacity
    ensures Unique(Register(events, t, u, input).after)
    ensures forall k :: 0 <= k < |events| ==>
      Size(Register(events, t, u, input).after, events[k].id) <= events[k].maxVolunteers + events[k].reserveCapacity
  {
    var r := Register(events, t, u, input);
    if r.verdict.Added? {
      var x := Row(u, input, Registered);
      UniqueAppend(t, x);
      forall k | 0 <= k < |events|
        ensures Size(r.after, events[k].id) <= events[k].maxVolunteers + events[k].reserveCapacity
      {
        SizeConcat(t, [x], events[k].id);
        SizeSingle(x, events[k].id);
        if events[k].id == input {
          var m :| 0 <= m < |events| && events[m] == Lookup(events, input).value &&
                   forall p :: 0 <= p < m ==> events[p].id != input;
          assert Size(t, input) < events[m].maxVolunteers + events[m].reserveCapacity;
          assert k == m;
        }
      }
    }
  }

  /** The Cancel Registration button under one listed row: that row, and only
      it, leaves the table; the event's row count drops by one and nobody is
      promoted. */
  lemma CancelPreserves(t: Ledger, i: nat)
    requires i < |t|
    ensures Size(Drop(t, i), t[i].event) == Size(t, t[i].event) - 1
    ensures forall e :: e != t[i].event ==> EventRows(Drop(t, i), e) == EventRows(t, e)
    ensures forall e, s :: Count(Drop(t, i), e, s) <= Count(t, e, s)
    ensures Unique(t) ==> Unique(Drop(t, i))
  {
    var e := t[i].event;
    SizeByStatus(t, e);
    SizeByStatus(Drop(t, i), e);
    DropCount(t, i, e, Registered);
    DropCount(t, i, e, Reserve);
    forall e' | e' != e
      ensures EventRows(Drop(t, i), e') == EventRows(t, e')
    {
      DropOtherEvent(t, i, e');
    }
    forall e', s
      ensures Count(Drop(t, i), e', s) <= Count(t, e', s)
    {
      DropCount(t, i, e', s);
    }
    if Unique(t) {
      UniqueDrop(t, i);
    }
  }
}

=== FILE: main7.dfy ===
/** Version 7: one list only. Every row is Registered, the bound counts every
    row of the event, and a cancel drops the user's rows without promoting
    anyone. */
module Main7 {
  import opened Registrations

  /** The Register for Events button. It is shown only for events the user
      held no row of when the page was built (`seen`); the click reloads the
      table (`current`) and appends a Registered row while the event has
      fewer than Max Volunteers rows there. At capacity the click changes
      nothing and says nothing. */
  function Register(seen: Ledger, current: Ledger, ev: Event, u: UserId): (r: Step)
    ensures r.verdict == AlreadyRegistered <==> Has(seen, u, ev.id)
    ensures r.verdict.Added? <==> !Has(seen, u, ev.id) && Size(current, ev.id) < ev.maxVolunteers
    ensures r.verdict.Added? ==>
      r.verdict.status == Registered && r.after == current + [Row(u, ev.id, Registered)]
    ensures !r.verdict.Added? ==> r.after == current
  {
    if Has(seen, u, ev.id) then Step(AlreadyRegistered, current)
    else if Size(current, ev.id) < ev.maxVolunteers then Step(Added(Registered), current + [Row(u, ev.id, Registered)])
    else Step(Full, current)
  }

  /** The check runs against the reloaded table, so the event never holds more
      than Max Volunteers rows, and nobody is ever put on a reserve list. With
      no change between load and click, one row per pair is kept too. */
  lemma RegisterKeepsBound(seen: Ledger, current: Ledger, ev: Event, u: UserId)
    requires Size(current, ev.id) <= ev.maxVolunteers
    ensures Size(Register(seen, current, ev, u).after, ev.id) <= ev.maxVolunteers
    ensures Count(Register(seen, current, ev, u).after, ev.id, Reserve) == Count(current, ev.id, Reserve)
    ensures seen == current && Unique(current) ==> Unique(Register(seen, current, ev, u).after)
  {
    var r := Register(seen, current, ev, u);
    if r.verdict.Added? {
      var x := Row(u, ev.id, Registered);
      SizeConcat(current, [x], ev.id);
      SizeSingle(x, ev.id);
      CountAppend(current, x, ev.id, Reserve);
      if seen == current && Unique(current) {
        UniqueAppend(current, x);
      }
    }
  }

  /** The Cancel Registration button: every row of the pair leaves the table,
      so the user can register again; nothing else changes and nobody moves
      up. */
  lemma CancelPreserves(t: Ledger, ev: Event, u: UserId)
    requires Size(t, ev.id) <= ev.maxVolunteers
    ensures !Has(Withdraw(t, u, ev.id), u, ev.id)
    ensures Size(Withdraw(t, u, ev.id), ev.id) <= ev.maxVolunteers
    ensures forall s :: Count(Withdraw(t, u, ev.id), ev.id, s) <= Count(t, ev.id, s)
    ensures Unique(t) ==> Unique(Withdraw(t, u, ev.id))
  {
    WithdrawSize(t, u, ev.id, ev.id);
    forall s
      ensures Count(Withdraw(t, u, ev.id), ev.id, s) <= Count(t, ev.id, s)
    {
      WithdrawCount(t, u, ev.id, ev.id, s);
    }
    if Unique(t) {
      WithdrawUnique(t, u, ev.id);
    }
  }
}

=== FILE: registrations.dfy ===
/** The registrations table shared by every version of the sign-up app: the
    row and event types, per-event counts, and the table edits the handlers
    are built from (append, drop a row, rewrite a status, filter).

    Row order is arrival order: every version appends new rows at the end, and
    the earliest Reserve row of an event is the one promoted first. */
module Registrations {

  /** Value of the Status column. Versions that write lower-case
      'registered' / 'reserve' map onto the same two values. */
  datatype Status = Registered | Reserve

  type UserId = string
  type EventId = string

  /** An events-table row, reduced to the columns the registration logic reads. */
  datatype Event = Event(id: EventId, maxVolunteers: nat, reserveCapacity: nat)

  /** A registrations-table row. The status type is a parameter because the
      earliest version keeps no Status column; it uses `Row<()>`. */
  datatype Row<S> = Row(user: UserId, event: EventId, status: S)

  /** The registrations table, in file order. */
  type Ledger = seq<Row<Status>>

  datatype Option<T> = None | Some(value: T)

  /** What a register click ends in. */
  datatype Verdict =
    | Added(status: Status)
    | AlreadyRegistered
    | Full
    | MissingEventId
    | UnknownEvent
    | NotSignedIn

  /** The verdict together with the table as saved afterwards. */
  datatype Step = Step(verdict: Verdict, after: Ledger)

  /** A cancellation: the position (in `after`) of the promoted row, if any. */
  datatype Cancellation = Cancellation(promoted: Option<nat>, after: Ledger)

  // ---------------------------------------------------------------------------
  // Counting

  predicate Holds(r: Row<Status>, e: EventId, s: Status) {
    r.event == e && r.status == s
  }

  /** Number of rows of event `e` whose status is `s`. */
  function Count(t: Ledger, e: EventId, s: Status): nat
  {
    if t == [] then 0 else (if Holds(t[0], e, s) then 1 else 0) + Count(t[1..], e, s)
  }

  /** Number of rows of event `e`, whatever their status. */
  function Size<S>(t: seq<Row<S>>, e: EventId): nat
  {
    if t == [] then 0 else (if t[0].event == e then 1 else 0) + Size(t[1..], e)
  }

  /** The rows of event `e`, in table order. */
  function EventRows<S>(t: seq<Row<S>>, e: EventId): seq<Row<S>>
  {
    if t == [] then [] else (if t[0].event == e then [t[0]] else []) + EventRows(t[1..], e)
  }

  /** Some row pairs user `u` with event `e`. */
  predicate Has<S>(t: seq<Row<S>>, u: UserId, e: EventId) {
    exists k :: 0 <= k < |t| && t[k].user == u && t[k].event == e
  }

  /** At most one row per (user, event) pair. */
  predicate Unique<S>(t: seq<Row<S>>) {
    forall i, j :: 0 <= i < j < |t| ==> !(t[i].user == t[j].user && t[i].event == t[j].event)
  }

  /** Main list within Max Volunteers, reserve list within Reserve Capacity. */
  predicate WithinCapacity(t: Ledger, ev: Event) {
    Count(t, ev.id, Registered) <= ev.maxVolunteers && Count(t, ev.id, Reserve) <= ev.reserveCapacity
  }

  /** Nobody waits while a main-list slot is free. */
  predicate WaitlistJustified(t: Ledger, ev: Event) {
    Count(t, ev.id, Reserve) > 0 ==> Count(t, ev.id, Registered) >= ev.maxVolunteers
  }

  predicate Consistent(t: Ledger, ev: Event) {
    WithinCapacity(t, ev) && WaitlistJustified(t, ev)
  }

  lemma {:induction false} CountConcat(a: Ledger, b: Ledger, e: EventId, s: Status)
    ensures Count(a + b, e, s) == Count(a, e, s) + Count(b, e, s)
  {
    if a == [] {
      assert a + b == b;
    } else {
      assert (a + b)[1..] == a[1..] + b;
      CountConcat(a[1..], b, e, s);
    }
  }

  lemma {:induction false} SizeConcat<S>(a: seq<Row<S>>, b: seq<Row<S>>, e: EventId)
    ensures Size(a + b, e) == Size(a, e) + Size(b, e)
  {
    if a == [] {
      assert a + b == b;
    } else {
      assert (a + b)[1..] == a[1..] + b;
      SizeConcat(a[1..], b, e);
    }
  }

  lemma {:induction false} EventRowsConcat<S>(a: seq<Row<S>>, b: seq<Row<S>>, e: EventId)
    ensures EventRows(a + b, e) == EventRows(a, e) + EventRows(b, e)
  {
    if a == [] {
      assert a + b == b;
    } else {
      assert (a + b)[1..] == a[1..] + b;
      EventRowsConcat(a[1..], b, e);
      var head := if a[0].event == e then [a[0]] else [];
      assert EventRows(a + b, e) == head + (EventRows(a[1..], e) + EventRows(b, e));
      assert EventRows(a, e) == head + EventRows(a[1..], e);
    }
  }

  lemma CountSingle(x: Row<Status>, e: EventId, s: Status)
    ensures Count([x], e, s) == if Holds(x, e, s) then 1 else 0
  {
    assert [x][1..] == [];
  }

  lemma SizeSingle<S>(x: Row<S>, e: EventId)
    ensures Size([x], e) == if x.event == e then 1 else 0
  {
    assert [x][1..] == [];
  }

  lemma EventRowsSingle<S>(x: Row<S>, e: EventId)
    ensures EventRows([x], e) == if x.event == e then [x] else []
  {
    assert [x][1..] == [];
  }

  /** Appending one row adds one to exactly the counts that row belongs to. */
  lemma CountAppend(t: Ledger, x: Row<Status>, e: EventId, s: Status)
    ensures Count(t + [x], e, s) == Count(t, e, s) + (if Holds(x, e, s) then 1 else 0)
  {
    CountConcat(t, [x], e, s);
    CountSingle(x, e, s);
  }

  /** Every row of an event has one of the two statuses. */
  lemma {:induction false} SizeByStatus(t: Ledger, e: EventId)
    ensures Size(t, e) == Count(t, e, Registered) + Count(t, e, Reserve)
  {
    if t != [] {
      SizeByStatus(t[1..], e);
    }
  }

  /** A count is zero exactly when no row matches. */
  lemma {:induction false} CountZeroIff(t: Ledger, e: EventId, s: Status)
    ensures Count(t, e, s) == 0 <==> forall k :: 0 <= k < |t| ==> !Holds(t[k], e, s)
  {
    if t != [] {
      CountZeroIff(t[1..], e, s);
      assert forall k :: 1 <= k < |t| ==> t[k] == t[1..][k - 1];
    }
  }

  // ---------------------------------------------------------------------------
  // Selecting the next waiting row

  /** Position of the earliest Reserve row of event `e`: the head of the
      event's reserve list, the row a cancel looks at first. */
  function FirstReserve(t: Ledger, e: EventId): (r: Option<nat>)
    ensures r.Some? ==> r.value < |t| && Holds(t[r.value], e, Reserve)
    ensures r.Some? ==> forall k :: 0 <= k < r.value ==> !Holds(t[k], e, Reserve)
    ensures r.None? <==> Count(t, e, Reserve) == 0
  {
    CountZeroIff(t, e, Reserve);
    if t == [] then None
    else if Holds(t[0], e, Reserve) then Some(0)
    else
      match FirstReserve(t[1..], e)
      case None => None
      case Some(j) => Some(j + 1)
  }

  // ---------------------------------------------------------------------------
  // Table edits

  /** Deleting one row by its label: the row at position `i` disappears and the
      rows behind it move up by one. */
  function Drop(t: Ledger, i: nat): (r: Ledger)
    requires i < |t|
    ensures |r| == |t| - 1
    ensures forall k :: 0 <= k < i ==> r[k] == t[k]
    ensures forall k :: i <= k < |r| ==> r[k] == t[k + 1]
  {
    t[..i] + t[i + 1..]
  }

  /** Overwriting the status of the row at position `i` with `s`. */
  function SetStatus(t: Ledger, i: nat, s: Status): (r: Ledger)
    requires i < |t|
    ensures |r| == |t| && r[i] == Row(t[i].user, t[i].event, s)
    ensures forall k :: 0 <= k < |t| && k != i ==> r[k] == t[k]
  {
    t[i := t[i].(status := s)]
  }

  /** Removing one row lowers exactly the counts it belonged to. */
  lemma DropCount(t: Ledger, i: nat, e: EventId, s: Status)
    requires i < |t|
    ensures Count(Drop(t, i), e, s) == Count(t, e, s) - (if Holds(t[i], e, s) then 1 else 0)
  {
    assert t == t[..i] + [t[i]] + t[i + 1..];
    CountConcat(t[..i] + [t[i]], t[i + 1..], e, s);
    CountConcat(t[..i], [t[i]], e, s);
    CountConcat(t[..i], t[i + 1..], e, s);
    CountSingle(t[i], e, s);
  }

  /** Rewriting one status moves that row from one count to the other. */
  lemma SetStatusCount(t: Ledger, i: nat, s: Status, e: EventId, s': Status)
    requires i < |t|
    ensures Count(SetStatus(t, i, s), e, s') ==
            Count(t, e, s') - (if Holds(t[i], e, s') then 1 else 0)
                            + (if t[i].event == e && s == s' then 1 else 0)
  {
    var x := t[i].(status := s);
    assert t == t[..i] + [t[i]] + t[i + 1..];
    assert SetStatus(t, i, s) == t[..i] + [x] + t[i + 1..];
    CountConcat(t[..i] + [t[i]], t[i + 1..], e, s');
    CountConcat(t[..i], [t[i]], e, s');
    CountConcat(t[..i] + [x], t[i + 1..], e, s');
    CountConcat(t[..i], [x], e, s');
    CountSingle(t[i], e, s');
    CountSingle(x, e, s');
  }

  /** Dropping a row of another event leaves the rows of `e` as they were. */
  lemma DropOtherEvent(t: Ledger, i: nat, e: EventId)
    requires i < |t| && t[i].event != e
    ensures EventRows(Drop(t, i), e) == EventRows(t, e)
  {
    assert t == t[..i] + [t[i]] + t[i + 1..];
    EventRowsConcat(t[..i] + [t[i]], t[i + 1..], e);
    EventRowsConcat(t[..i], [t[i]], e);
    EventRowsConcat(t[..i], t[i + 1..], e);
    EventRowsSingle(t[i], e);
  }

  /** Rewriting the status of a row of another event leaves the rows of `e` as they were. */
  lemma SetStatusOtherEvent(t: Ledger, i: nat, s: Status, e: EventId)
    requires i < |t| && t[i].event != e
    ensures EventRows(SetStatus(t, i, s), e) == EventRows(t, e)
  {
    var x := t[i].(status := s);
    assert t == t[..i] + [t[i]] + t[i + 1..];
    assert SetStatus(t, i, s) == t[..i] + [x] + t[i + 1..];
    EventRowsConcat(t[..i] + [t[i]], t[i + 1..], e);
    EventRowsConcat(t[..i], [t[i]], e);
    EventRowsConcat(t[..i] + [x], t[i + 1..], e);
    EventRowsConcat(t[..i], [x], e);
    EventRowsSingle(t[i], e);
    EventRowsSingle(x, e);
  }

  /** Appending a row of another event leaves the rows of `e` as they were. */
  lemma AppendOtherEvent<S>(t: seq<Row<S>>, x: Row<S>, e: EventId)
    requires x.event != e
    ensures EventRows(t + [x], e) == EventRows(t, e)
  {
    EventRowsConcat(t, [x], e);
    EventRowsSingle(x, e);
  }

  /** Two different rows of a unique table belong to different pairs. */
  lemma UniqueApart<S>(t: seq<Row<S>>, a: nat, b: nat)
    requires Unique(t) && a < |t| && b < |t| && a != b
    ensures !(t[a].user == t[b].user && t[a].event == t[b].event)
  {
    if b < a {
      assert !(t[b].user == t[a].user && t[b].event == t[a].event);
    }
  }

  lemma UniqueAppend<S>(t: seq<Row<S>>, x: Row<S>)
    requires Unique(t) && !Has(t, x.user, x.event)
    ensures Unique(t + [x])
  {
    var t' := t + [x];
    forall i, j | 0 <= i < j < |t'|
      ensures !(t'[i].user == t'[j].user && t'[i].event == t'[j].event)
    {
      if j == |t| {
        assert t'[i] == t[i];
      } else {
        assert t'[i] == t[i] && t'[j] == t[j];
      }
    }
  }

  lemma UniqueDrop(t: Ledger, i: nat)
    requires i < |t| && Unique(t)
    ensures Unique(Drop(t, i))
  {
    var r := Drop(t, i);
    forall a, b | 0 <= a < b < |r|
      ensures !(r[a].user == r[b].user && r[a].event == r[b].event)
    {
      var a' := if a < i then a else a + 1;
      var b' := if b < i then b else b + 1;
      assert r[a] == t[a'] && r[b] == t[b'] && a' < b';
    }
  }

  lemma UniqueSetStatus(t: Ledger, i: nat, s: Status)
    requires i < |t| && Unique(t)
    ensures Unique(SetStatus(t, i, s))
  {
    var r := SetStatus(t, i, s);
    assert forall k :: 0 <= k < |t| ==> r[k].user == t[k].user && r[k].event == t[k].event;
  }

  /** Remove Event on the registrations table: keep the rows of every other
      event, in order. */
  function RemoveEvent<S(!new)>(t: seq<Row<S>>, e: EventId): (r: seq<Row<S>>)
    ensures EventRows(r, e) == [] && Size(r, e) == 0
    ensures forall e' :: e' != e ==> EventRows(r, e') == EventRows(t, e')
    ensures |r| == |t| - Size(t, e)
    ensures forall x :: x in r <==> x in t && x.event != e
  {
    if t == [] then []
    else if t[0].event == e then RemoveEvent(t[1..], e)
    else
      var rest := RemoveEvent(t[1..], e);
      assert ([t[0]] + rest)[1..] == rest;
      [t[0]] + rest
  }

  /** Delete every row that pairs user `u` with event `e`, keeping the
      others in order. */
  function Withdraw<S(!new)>(t: seq<Row<S>>, u: UserId, e: EventId): (r: seq<Row<S>>)
    ensures !Has(r, u, e)
    ensures forall x :: x in r <==> x in t && !(x.user == u && x.event == e)
    ensures forall e' :: e' != e ==> EventRows(r, e') == EventRows(t, e')
  {
    if t == [] then []
    else if t[0].user == u && t[0].event == e then Withdraw(t[1..], u, e)
    else
      var rest := Withdraw(t[1..], u, e);
      assert ([t[0]] + rest)[1..] == rest;
      [t[0]] + rest
  }

  /** Putting a row in front of a table that holds none of its pair keeps
      one row per pair. */
  lemma UniqueCons<S>(x: Row<S>, rest: seq<Row<S>>)
    requires Unique(rest) && !Has(rest, x.user, x.event)
    ensures Unique([x] + rest)
  {
    var r := [x] + rest;
    forall i, j | 0 <= i < j < |r|
      ensures !(r[i].user == r[j].user && r[i].event == r[j].event)
    {
      assert r[j] == rest[j - 1];
      if i > 0 {
        assert r[i] == rest[i - 1];
      }
    }
  }

  lemma HeadNotInTail<S>(t: seq<Row<S>>)
    requires |t| > 0 && Unique(t)
    ensures !Has(t[1..], t[0].user, t[0].event)
  {
    forall k | 0 <= k < |t| - 1
      ensures !(t[1..][k].user == t[0].user && t[1..][k].event == t[0].event)
    {
      assert t[1..][k] == t[k + 1];
    }
  }

  /** A pair absent from a table is absent from any table whose rows all
      come from it. */
  lemma NotHasSubset<S(!new)>(a: seq<Row<S>>, b: seq<Row<S>>, u: UserId, e: EventId)
    requires forall x :: x in a ==> x in b
    requires !Has(b, u, e)
    ensures !Has(a, u, e)
  {
    forall k | 0 <= k < |a|
      ensures !(a[k].user == u && a[k].event == e)
    {
      assert a[k] in b;
    }
  }

  /** Withdrawing keeps one row per pair. */
  lemma {:induction false} WithdrawUnique<S(!new)>(t: seq<Row<S>>, u: UserId, e: EventId)
    requires Unique(t)
    ensures Unique(Withdraw(t, u, e))
  {
    if t != [] {
      UniqueTail(t);
      WithdrawUnique(t[1..], u, e);
      if !(t[0].user == u && t[0].event == e) {
        var rest := Withdraw(t[1..], u, e);
        HeadNotInTail(t);
        NotHasSubset(rest, t[1..], t[0].user, t[0].event);
        UniqueCons(t[0], rest);
      }
    }
  }

  /** Withdrawing never adds to a count. */
  lemma {:induction false} WithdrawCount(t: Ledger, u: UserId, e: EventId, e': EventId, s: Status)
    ensures Count(Withdraw(t, u, e), e', s) <= Count(t, e', s)
    ensures e' != e ==> Count(Withdraw(t, u, e), e', s) == Count(t, e', s)
  {
    if t != [] {
      WithdrawCount(t[1..], u, e, e', s);
      if !(t[0].user == u && t[0].event == e) {
        var rest := Withdraw(t[1..], u, e);
        assert ([t[0]] + rest)[1..] == rest;
      }
    }
  }

  /** Withdrawing never adds rows to an event. */
  lemma {:induction false} WithdrawSize<S(!new)>(t: seq<Row<S>>, u: UserId, e: EventId, e': EventId)
    ensures Size(Withdraw(t, u, e), e') <= Size(t, e')
  {
    if t != [] {
      WithdrawSize(t[1..], u, e, e');
      if !(t[0].user == u && t[0].event == e) {
        var rest := Withdraw(t[1..], u, e);
        assert ([t[0]] + rest)[1..] == rest;
      }
    }
  }

  /** Withdrawing a pair that holds no row changes nothing. */
  lemma {:induction false} WithdrawAbsent<S(!new)>(t: seq<Row<S>>, u: UserId, e: EventId)
    requires !Has(t, u, e)
    ensures Withdraw(t, u, e) == t
  {
    if t != [] {
      assert !(t[0].user == u && t[0].event == e);
      assert !Has(t[1..], u, e) by {
        assert forall k :: 0 <= k < |t| - 1 ==> t[1..][k] == t[k + 1];
      }
      WithdrawAbsent(t[1..], u, e);
      assert t == [t[0]] + t[1..];
    }
  }

  /** Which rows a filter of the registrations table keeps. */
  datatype Keep =
    | OutsidePair(u: UserId, e: EventId)  // every row except those pairing `u` with `e`
    | OtherEvent(e: EventId)              // every row of another event
    | OfUser(u: UserId)                   // every row of user `u`

  predicate Keeps<S>(k: Keep, x: Row<S>) {
    match k
    case OutsidePair(u, e) => !(x.user == u && x.event == e)
    case OtherEvent(e) => x.event != e
    case OfUser(u) => x.user == u
  }

  /** `idx` lists, in increasing order, the positions in `t` of the rows of
      `r`, and they are exactly the positions of the rows `k` keeps: `r` is
      the kept rows, each once, in table order. */
  ghost predicate KeptInOrder<S>(t: seq<Row<S>>, r: seq<Row<S>>, idx: seq<nat>, k: Keep) {
    && |idx| == |r|
    && (forall j :: 0 <= j < |idx| ==> idx[j] < |t| && r[j] == t[idx[j]])
    && (forall j, m :: 0 <= j < m < |idx| ==> idx[j] < idx[m])
    && (forall i :: 0 <= i < |t| ==> (i in idx <==> Keeps(k, t[i])))
  }

  /** Positions shifted by one for a table that gained a row in front. */
  function Shift(idx: seq<nat>): (r: seq<nat>)
    ensures |r| == |idx| && forall j :: 0 <= j < |idx| ==> r[j] == idx[j] + 1
    ensures forall i :: i in r <==> i >= 1 && i - 1 in idx
  {
    seq(|idx|, j requires 0 <= j < |idx| => idx[j] + 1)
  }

  /** A row the filter drops in front of the table: the kept positions shift
      by one. */
  lemma KeptPastHead<S>(t: seq<Row<S>>, rest: seq<Row<S>>, idx: seq<nat>, k: Keep)
    requires |t| > 0 && !Keeps(k, t[0])
    requires KeptInOrder(t[1..], rest, idx, k)
    ensures KeptInOrder(t, rest, Shift(idx), k)
  {
    var shifted := Shift(idx);
    forall j | 0 <= j < |shifted|
      ensures shifted[j] < |t| && rest[j] == t[shifted[j]]
    {
      assert t[1..][idx[j]] == t[idx[j] + 1];
    }
    forall i | 0 <= i < |t|
      ensures i in shifted <==> Keeps(k, t[i])
    {
      if i >= 1 {
        assert t[1..][i - 1] == t[i];
      }
    }
  }

  /** A row the filter keeps in front of the table: it comes first, and the
      other kept positions shift by one. */
  lemma KeptWithHead<S>(t: seq<Row<S>>, rest: seq<Row<S>>, idx: seq<nat>, k: Keep)
    requires |t| > 0 && Keeps(k, t[0])
    requires KeptInOrder(t[1..], rest, idx, k)
    ensures KeptInOrder(t, [t[0]] + rest, [0] + Shift(idx), k)
  {
    HeadRows(t, rest, idx);
    HeadIncreasing(idx);
    HeadMembers(t, rest, idx, k);
  }

  /** Positions with a leading 0 still pick out the rows of the longer table. */
  lemma HeadRows<S>(t: seq<Row<S>>, rest: seq<Row<S>>, idx: seq<nat>)
    requires |t| > 0 && |idx| == |rest|
    requires forall j :: 0 <= j < |idx| ==> idx[j] < |t[1..]| && rest[j] == t[1..][idx[j]]
    ensures forall j :: 0 <= j < |[0] + Shift(idx)| ==> ([0] + Shift(idx))[j] < |t| && ([t[0]] + rest)[j] == t[([0] + Shift(idx))[j]]
  {
    var idx2 := [0] + Shift(idx);
    var r := [t[0]] + rest;
    forall j | 0 <= j < |idx2|
      ensures idx2[j] < |t| && r[j] == t[idx2[j]]
    {
      if j > 0 {
        assert idx2[j] == idx[j - 1] + 1 && r[j] == rest[j - 1];
        assert t[1..][idx[j - 1]] == t[idx[j - 1] + 1];
      }
    }
  }

  /** A leading 0 keeps increasing positions increasing. */
  lemma HeadIncreasing(idx: seq<nat>)
    requires forall j, m :: 0 <= j < m < |idx| ==> idx[j] < idx[m]
    ensures forall j, m :: 0 <= j < m < |[0] + Shift(idx)| ==> ([0] + Shift(idx))[j] < ([0] + Shift(idx))[m]
  {
    var idx2 := [0] + Shift(idx);
    forall j, m | 0 <= j < m < |idx2|
      ensures idx2[j] < idx2[m]
    {
      assert idx2[m] == idx[m - 1] + 1;
      if j > 0 {
        assert idx2[j] == idx[j - 1] + 1;
      }
    }
  }

  /** With the head kept, the listed positions are exactly the kept rows. */
  lemma HeadMembers<S>(t: seq<Row<S>>, rest: seq<Row<S>>, idx: seq<nat>, k: Keep)
    requires |t| > 0 && Keeps(k, t[0])
    requires forall i :: 0 <= i < |t[1..]| ==> (i in idx <==> Keeps(k, t[1..][i]))
    ensures forall i :: 0 <= i < |t| ==> (i in [0] + Shift(idx) <==> Keeps(k, t[i]))
  {
    var idx2 := [0] + Shift(idx);
    forall i | 0 <= i < |t|
      ensures i in idx2 <==> Keeps(k, t[i])
    {
      if i == 0 {
        assert idx2[0] == 0;
      } else {
        ConsShiftIn(idx, i);
        assert t[1..][i - 1] == t[i];
      }
    }
  }

  /** A positive position is listed after a leading 0 exactly when the
      position before it is listed in `idx`. */
  lemma ConsShiftIn(idx: seq<nat>, i: nat)
    requires i >= 1
    ensures i in [0] + Shift(idx) <==> i - 1 in idx
  {
    var s := [0] + Shift(idx);
    if i in s {
      var j :| 0 <= j < |s| && s[j] == i;
      assert s[j] == Shift(idx)[j - 1];
    }
    if i - 1 in idx {
      var j :| 0 <= j < |idx| && idx[j] == i - 1;
      assert s[j + 1] == i;
    }
  }

  /** Withdrawing keeps every other row, each once, in table order; in
      particular the reserve list of every event keeps its order. */
  lemma {:induction false} WithdrawInOrder<S(!new)>(t: seq<Row<S>>, u: UserId, e: EventId)
    ensures exists idx :: KeptInOrder(t, Withdraw(t, u, e), idx, OutsidePair(u, e))
  {
    var k := OutsidePair(u, e);
    if t == [] {
      assert KeptInOrder(t, Withdraw(t, u, e), [], k);
    } else {
      WithdrawInOrder(t[1..], u, e);
      var rest := Withdraw(t[1..], u, e);
      var idx :| KeptInOrder(t[1..], rest, idx, k);
      if t[0].user == u && t[0].event == e {
        KeptPastHead(t, rest, idx, k);
        assert Withdraw(t, u, e) == rest;
        assert KeptInOrder(t, Withdraw(t, u, e), Shift(idx), k);
      } else {
        KeptWithHead(t, rest, idx, k);
        assert Withdraw(t, u, e) == [t[0]] + rest;
        assert KeptInOrder(t, Withdraw(t, u, e), [0] + Shift(idx), k);
      }
    }
  }

  /** Remove Event keeps every row of every other event, each once, in table
      order. */
  lemma {:induction false} RemoveEventInOrder<S(!new)>(t: seq<Row<S>>, e: EventId)
    ensures exists idx :: KeptInOrder(t, RemoveEvent(t, e), idx, OtherEvent(e))
  {
    var k := OtherEvent(e);
    if t == [] {
      assert KeptInOrder(t, RemoveEvent(t, e), [], k);
    } else {
      RemoveEventInOrder(t[1..], e);
      var rest := RemoveEvent(t[1..], e);
      var idx :| KeptInOrder(t[1..], rest, idx, k);
      if t[0].event == e {
        KeptPastHead(t, rest, idx, k);
        assert RemoveEvent(t, e) == rest;
        assert KeptInOrder(t, RemoveEvent(t, e), Shift(idx), k);
      } else {
        KeptWithHead(t, rest, idx, k);
        assert RemoveEvent(t, e) == [t[0]] + rest;
        assert KeptInOrder(t, RemoveEvent(t, e), [0] + Shift(idx), k);
      }
    }
  }

  lemma UniqueTail<S>(t: seq<Row<S>>)
    requires |t| > 0 && Unique(t)
    ensures Unique(t[1..])
  {
    assert forall k :: 0 <= k < |t| - 1 ==> t[1..][k] == t[k + 1];
  }

  lemma DropCons(t: Ledger, i: nat)
    requires 0 < i < |t|
    ensures Drop(t, i) == [t[0]] + Drop(t[1..], i - 1)
  {
  }

  /** With one row per pair, the first row's pair holds no other row. */
  lemma WithdrawHead(t: Ledger)
    requires |t| > 0 && Unique(t)
    ensures Withdraw(t, t[0].user, t[0].event) == Drop(t, 0)
  {
    var u, e := t[0].user, t[0].event;
    assert !Has(t[1..], u, e) by {
      forall k | 0 <= k < |t| - 1
        ensures !(t[1..][k].user == u && t[1..][k].event == e)
      {
        assert t[1..][k] == t[k + 1];
      }
    }
    WithdrawAbsent(t[1..], u, e);
  }

  /** With one row per pair, withdrawing a pair drops exactly its row. */
  lemma {:induction false} WithdrawIsDrop(t: Ledger, i: nat)
    requires i < |t| && Unique(t)
    ensures Withdraw(t, t[i].user, t[i].event) == Drop(t, i)
  {
    if i == 0 {
      WithdrawHead(t);
    } else {
      var u, e := t[i].user, t[i].event;
      UniqueTail(t);
      UniqueApart(t, 0, i);
      assert t[1..][i - 1] == t[i];
      WithdrawIsDrop(t[1..], i - 1);
      DropCons(t, i);
      assert Withdraw(t, u, e) == [t[0]] + Withdraw(t[1..], u, e);
    }
  }

  /** The counts of an event depend only on that event's rows. */
  lemma {:induction false} CountOfEventRows(t: Ledger, e: EventId, s: Status)
    ensures Count(t, e, s) == Count(EventRows(t, e), e, s)
  {
    if t != [] {
      CountOfEventRows(t[1..], e, s);
      if t[0].event == e {
        CountConcat([t[0]], EventRows(t[1..], e), e, s);
        CountSingle(t[0], e, s);
      } else {
        assert EventRows(t, e) == [] + EventRows(t[1..], e) == EventRows(t[1..], e);
      }
    }
  }

  /** Removing event `e` keeps every other event consistent and keeps one row per pair. */
  lemma RemoveEventPreserves(t: Ledger, e: EventId, ev: Event)
    requires ev.id != e
    ensures Consistent(t, ev) ==> Consistent(RemoveEvent(t, e), ev)
    ensures Unique(t) ==> Unique(RemoveEvent(t, e))
  {
    CountOfEventRows(t, ev.id, Registered);
    CountOfEventRows(t, ev.id, Reserve);
    CountOfEventRows(RemoveEvent(t, e), ev.id, Registered);
    CountOfEventRows(RemoveEvent(t, e), ev.id, Reserve);
    if Unique(t) {
      RemoveEventUnique(t, e);
    }
  }

  lemma {:induction false} RemoveEventUnique<S(!new)>(t: seq<Row<S>>, e: EventId)
    requires Unique(t)
    ensures Unique(RemoveEvent(t, e))
  {
    if t != [] {
      UniqueTail(t);
      RemoveEventUnique(t[1..], e);
      if t[0].event != e {
        var rest := RemoveEvent(t[1..], e);
        HeadNotInTail(t);
        NotHasSubset(rest, t[1..], t[0].user, t[0].event);
        UniqueCons(t[0], rest);
      }
    }
  }

  /** Marking user `u` Registered for event `e`: every row of the pair is
      rewritten, in place. */
  function PromoteUser(t: Ledger, u: UserId, e: EventId): (r: Ledger)
    ensures |r| == |t|
    ensures forall k :: 0 <= k < |t| ==>
      r[k] == if t[k].user == u && t[k].event == e then t[k].(status := Registered) else t[k]
  {
    seq(|t|, k requires 0 <= k < |t| =>
      if t[k].user == u && t[k].event == e then t[k].(status := Registered) else t[k])
  }

  /** With one row per pair, promoting a user is rewriting that one row. */
  lemma PromoteUserIsSetStatus(t: Ledger, j: nat)
    requires j < |t| && Unique(t)
    ensures PromoteUser(t, t[j].user, t[j].event) == SetStatus(t, j, Registered)
  {
    var r := PromoteUser(t, t[j].user, t[j].event);
    forall k | 0 <= k < |t| && k != j
      ensures r[k] == t[k]
    {
      UniqueApart(t, k, j);
    }
  }

  /** `b` differs from `a` only by Reserve rows that became Registered. */
  ghost predicate PromotionsOnly(a: Ledger, b: Ledger) {
    && |a| == |b|
    && forall k :: 0 <= k < |a| ==>
         && b[k].user == a[k].user && b[k].event == a[k].event
         && (b[k].status != a[k].status ==> a[k].status == Reserve && b[k].status == Registered)
  }

  /** Promotions only ever grow the main list and shrink the reserve list. */
  lemma {:induction false} PromotionsOnlyCounts(a: Ledger, b: Ledger, e: EventId)
    requires PromotionsOnly(a, b)
    ensures Count(b, e, Registered) >= Count(a, e, Registered)
    ensures Count(b, e, Reserve) <= Count(a, e, Reserve)
    ensures Count(b, e, Registered) + Count(b, e, Reserve) == Count(a, e, Registered) + Count(a, e, Reserve)
  {
    if a != [] {
      assert PromotionsOnly(a[1..], b[1..]) by {
        assert forall k :: 0 <= k < |a| - 1 ==> a[1..][k] == a[k + 1] && b[1..][k] == b[k + 1];
      }
      PromotionsOnlyCounts(a[1..], b[1..], e);
    }
  }

  /** Promotions keep the (user, event) pairs, so they keep uniqueness. */
  lemma PromotionsOnlyUnique(a: Ledger, b: Ledger)
    requires PromotionsOnly(a, b) && Unique(a)
    ensures Unique(b)
  {
  }

  // ---------------------------------------------------------------------------
  // The events table

  /** The first event carrying `id`, or nothing when no event does. */
  function Lookup(events: seq<Event>, id: EventId): (r: Option<Event>)
    ensures r.Some? ==> r.value in events && r.value.id == id
    ensures r.None? <==> forall k :: 0 <= k < |events| ==> events[k].id != id
    ensures r.Some? ==> exists k :: 0 <= k < |events| && events[k] == r.value &&
                                    forall m :: 0 <= m < k ==> events[m].id != id
  {
    if events == [] then None
    else if events[0].id == id then Some(events[0])
    else
      var r := Lookup(events[1..], id);
      assert forall k :: 1 <= k < |events| ==> events[k] == events[1..][k - 1];
      if r.Some? then
        assert exists k :: 0 <= k < |events| && events[k] == r.value &&
                           forall m :: 0 <= m < k ==> events[m].id != id by {
          var k' :| 0 <= k' < |events[1..]| && events[1..][k'] == r.value &&
                    forall m :: 0 <= m < k' ==> events[1..][m].id != id;
          assert events[k' + 1] == r.value;
          assert forall m :: 1 <= m < k' + 1 ==> events[m].id != id;
        }
        r
      else r
  }

  /** Remove Event on the events table: keep every event with another id. */
  function Unlist(events: seq<Event>, id: EventId): (r: seq<Event>)
    ensures forall x :: x in r <==> x in events && x.id != id
    ensures |r| <= |events|
  {
    if events == [] then []
    else if events[0].id == id then Unlist(events[1..], id)
    else [events[0]] + Unlist(events[1..], id)
  }

  /** After Remove Event the id finds no event, and every other id finds what
      it found before. */
  lemma {:induction false} UnlistLookup(events: seq<Event>, id: EventId, other: EventId)
    ensures Lookup(Unlist(events, id), id).None?
    ensures other != id ==> Lookup(Unlist(events, id), other) == Lookup(events, other)
  {
    if events != [] {
      UnlistLookup(events[1..], id, other);
      if events[0].id != id {
        var r := [events[0]] + Unlist(events[1..], id);
        assert r[1..] == Unlist(events[1..], id);
      }
    }
  }

  // ---------------------------------------------------------------------------
  // The three-way placement rule

  /** The status a new registration gets: the main list while it has room,
      else the reserve list while it has room, else none. */
  function Placement(t: Ledger, ev: Event): (p: Option<Status>)
    ensures p == Some(Registered) <==> Count(t, ev.id, Registered) < ev.maxVolunteers
    ensures p == Some(Reserve) <==>
      Count(t, ev.id, Registered) >= ev.maxVolunteers && Count(t, ev.id, Reserve) < ev.reserveCapacity
  {
    if Count(t, ev.id, Registered) < ev.maxVolunteers then Some(Registered)
    else if Count(t, ev.id, Reserve) < ev.reserveCapacity then Some(Reserve)
    else None
  }

  /** A row placed by the rule keeps both capacity bounds and keeps the
      reserve list empty while the main list has room. */
  lemma PlacementKeepsConsistent(t: Ledger, ev: Event, u: UserId)
    requires Consistent(t, ev) && Placement(t, ev).Some?
    ensures Consistent(t + [Row(u, ev.id, Placement(t, ev).value)], ev)
  {
    var x := Row(u, ev.id, Placement(t, ev).value);
    CountAppend(t, x, ev.id, Registered);
    CountAppend(t, x, ev.id, Reserve);
  }
}
